=== FILE: README.md ===
# Versioned users API and crypto-rate consumer, in Dafny

This project models the request handlers of a small DynamoDB learning API and the
stream consumer of a blockchain ETL pipeline, and proves properties about them.

- **The users table** (`Versions`, `Store`). It has partition key `user_id` and sort key
  `timestamp`. Writes never change a stored record. A create or an update appends a new
  record, so each user has a history of versions. The user's current state is the
  record with the greatest `timestamp`, and a delete removes every version. The table
  is a finite map from (partition key, sort key) to an item. `Store.Put` refuses an
  item whose key attributes are missing, are not strings, are empty, or are too long:
  a partition-key value may take at most 2048 bytes in UTF-8 and a sort-key value at
  most 1024. It also refuses an item whose `email`, the partition key of the
  `email-index` secondary index, is present but is not such a string, and one
  carrying an integer of more than 38 digits, which boto3 cannot serialise. A query on
  a key value the store would not take is refused too, and the handlers answer 500. The batch writer (`Store.BatchPut`) also
  refuses a request of 25 items that repeats a key.
- **The CRUD Lambda** (`Crud`). It routes on the HTTP method to `create_user`,
  `get_user`, `list_users`, `update_user` and `delete_user`.
- **The query Lambda** (`Query`). Five read-only operations are chosen by the
  `operation` query-string parameter: by user, by email through the `email-index`
  secondary index, an age scan, a user's history, and recently created users. Any
  other value returns the operation list.
- **The batch Lambda** (`Batch`). It covers batch writes, batch reads of the newest
  version of several users, and the eight sample users.
- **The Kinesis consumer** (`Consumer`). It stores every exchange-rate record under
  (`ticker`, arrival time). A record that cannot be stored is skipped, and the handler
  answers 200 whatever became of its records.

Timestamps are ISO-8601 text, and they are compared as Python and DynamoDB compare
strings. `Lex` defines that order and proves it equal to the textbook lexicographic
order. Some inputs come from outside the handlers, so each is a parameter:

- the order in which a scan or an index query returns items is `order`, with
  `ScanOf(t, order)` saying it lists every key exactly once;
- each new record's `uuid4` and `utcnow` readings are a `Draw`;
- the time `query_recent_users` cuts off at is `cutoffFor(hours)`, or None when turning
  the clock back that far leaves the years 1 to 9999.

The `*Laws` modules relate the operations to one another. They cover a write followed
by a read, a batch of one against a single create, a query against the history, and
the consumer's stream split in two.

## Model

| member | source | states |
|---|---|---|
| Lex.LessIsBelow | dynamodb-lambda/lambda/crud_handler.py:137 | Python's string `<` is the lexicographic order: a proper prefix comes first, otherwise the first differing character decides |
| Lex.Irreflexive | dynamodb-lambda/lambda/crud_handler.py:137 | no timestamp is newer than itself |
| Lex.Asymmetric | dynamodb-lambda/lambda/crud_handler.py:137 | of two timestamps at most one is newer than the other |
| Lex.Transitive | dynamodb-lambda/lambda/crud_handler.py:137 | newer-than is transitive |
| Lex.Total | dynamodb-lambda/lambda/crud_handler.py:137 | two different timestamps are always ordered one way or the other |
| Lex.MaxExists | dynamodb-lambda/lambda/crud_handler.py:102-106 | every non-empty set of timestamps has a newest member |
| Lex.Max | dynamodb-lambda/lambda/crud_handler.py:102-106 | the chosen timestamp is in the set and no member is newer |
| Lex.SortedDesc | dynamodb-lambda/lambda/query_handler.py:206-209 | a descending-order query returns exactly the set's members, each once, strictly newest first |
| Store.Utf8Size | dynamodb-lambda/dynamodb_lambda/dynamodb_lambda_stack.py:17-44 | the UTF-8 size by which a key value is measured takes one to four bytes per character, and is zero only for the empty string |
| Store.Utf8SizeAppend | dynamodb-lambda/dynamodb_lambda/dynamodb_lambda_stack.py:17-44 | the UTF-8 size of two strings joined is the sum of their sizes |
| Store.AsciiSize | dynamodb-lambda/dynamodb_lambda/dynamodb_lambda_stack.py:17-44 | an ASCII string takes one byte per character |
| Store.KeyTextIsSize | dynamodb-lambda/dynamodb_lambda/dynamodb_lambda_stack.py:17-44 | a key value is taken exactly when it is non-empty and at most the limit in UTF-8 bytes; a non-empty string of at most a quarter of the limit in characters always is |
| Store.KeyOf | dynamodb-lambda/dynamodb_lambda/dynamodb_lambda_stack.py:17-34 | an item yields a key exactly when it names one: both key attributes present and strings, the partition key of 1 to 2048 UTF-8 bytes and the sort key of 1 to 1024 |
| Store.Put | dynamodb-lambda/dynamodb_lambda/dynamodb_lambda_stack.py:17-44 | put_item is refused exactly when the item names no valid key (missing, not a string, empty, or over 2048 UTF-8 bytes for the partition key or 1024 for the sort key), carries an index key that is not a string of 1 to 2048 bytes, or carries an integer of more than 38 digits; otherwise it stores the item under its key and keeps the store invariant |
| Store.PutAll | dynamodb-lambda/lambda/batch_handler.py:59-83 | puts one after another succeed exactly when the store accepts every item, and keep the store invariant |
| Store.PutAllFresh | dynamodb-lambda/lambda/batch_handler.py:59-83 | items under distinct keys not yet stored add one record each, each readable under its key, and every stored record stays |
| Store.BatchPut | dynamodb-lambda/lambda/batch_handler.py:59-83 | the batch writer stores the items exactly when the store accepts each of them and no request of 25 repeats a key, and then as the puts one after another do |
| Store.BatchPutOfDistinct | dynamodb-lambda/lambda/batch_handler.py:59-83 | items under pairwise different keys are stored by the batch writer as by puts one after another |
| Store.RepeatedKeyInFlush | dynamodb-lambda/lambda/batch_handler.py:59-83 | two items with one key in one request make the batch writer refuse the batch, where puts one after another would succeed |
| Store.Where | dynamodb-lambda/lambda/query_handler.py:166-170 | a filtered scan returns exactly the scanned keys whose items pass the filter, none twice |
| Store.DistinctCard | dynamodb-lambda/lambda/query_handler.py:137-146 | a list with no repeats has as many entries as distinct members, so a reported count equals the number of matches |
| Versions.VersionKeys | dynamodb-lambda/lambda/query_handler.py:206-209 | a partition query with ScanIndexForward=False returns every version of the user and nothing else, strictly newest first |
| Versions.NewestFirstUnique | dynamodb-lambda/lambda/query_handler.py:206-209 | two newest-first listings of the same set of versions are equal, so the history does not depend on how it was produced |
| Versions.LatestKey | dynamodb-lambda/lambda/crud_handler.py:102-106 | the Limit=1 descending query finds nothing exactly when the user has no version; otherwise it finds the user's newest version |
| Versions.Latest | dynamodb-lambda/lambda/crud_handler.py:102-119 | the record get_user returns is the user's newest version, and there is none exactly when the user has no version |
| Versions.LatestUnique | dynamodb-lambda/lambda/crud_handler.py:102-106 | a user has only one newest version |
| Versions.LatestKeyIs | dynamodb-lambda/lambda/crud_handler.py:102-106 | whichever version is the newest is the one the Limit=1 query returns |
| Versions.VersionKeysAfterPut | dynamodb-lambda/lambda/crud_handler.py:179-190 | writing a version newer than all of the user's puts it at the head of the history, ahead of the old history unchanged, and makes it the newest |
| Versions.PutFresh | dynamodb-lambda/lambda/crud_handler.py:82 | a new version is one record more, leaves every other record alone, and is what a following read returns |
| Versions.VersionKeysOfOthersAfterPut | dynamodb-lambda/lambda/crud_handler.py:190 | writing one user's version leaves every other user's history and newest version unchanged |
| Versions.VersionKeysAfterRemove | dynamodb-lambda/lambda/crud_handler.py:221-229 | removing a user's versions empties its history and leaves every other user's history and newest version as they were |
| Versions.FindUser | dynamodb-lambda/lambda/crud_handler.py:137 | the `user_id not in users_dict` lookup: the user's position in the grouping dictionary, or its length when absent |
| Versions.GroupLatest | dynamodb-lambda/lambda/crud_handler.py:134-140 | the grouping loop keeps one entry per user, for exactly the users scanned, each the newest of that user's scanned versions |
| Versions.GroupStepKeeps | dynamodb-lambda/lambda/crud_handler.py:135-138 | one turn of the grouping loop keeps its invariant: distinct users, the users seen so far, each at its newest version seen so far |
| Versions.GroupOfScan | dynamodb-lambda/lambda/crud_handler.py:131-140 | grouping a full scan gives every user's newest version exactly once, whatever the scan order |
| Versions.DistinctUsersCard | dynamodb-lambda/lambda/crud_handler.py:140-146 | the grouped list has as many entries as distinct users, so its count is the number of users |
| Versions.GroupOfFilteredScan | dynamodb-lambda/lambda/query_handler.py:166-179 | grouping a filtered scan gives, for every user with a matching version, the newest matching version, exactly once |
| Crud.NewUserIsBuiltFrom | dynamodb-lambda/lambda/crud_handler.py:62-79 | a new user carries the supplied or drawn id, the clock reading in its three time attributes, name and email as given, age defaulting to 0, phone and address only when supplied, and nothing else |
| Crud.NewUserIsFiled | dynamodb-lambda/lambda/crud_handler.py:62-82 | a new user is stored under (its id, the clock reading) when the id is a string of 1 to 2048 UTF-8 bytes, the clock reading one of 1 to 1024 bytes, its email a string of 1 to 2048 bytes that can key the email index, and its numbers have at most 38 digits, and refused otherwise |
| Crud.Create | dynamodb-lambda/lambda/crud_handler.py:55-96 | 400 exactly when the body or name or email is missing; a body that is not a JSON object is 500; 201 exactly when the user can be filed (an id and an email of 1 to 2048 UTF-8 bytes, a clock reading of 1 to 1024 bytes, numbers of at most 38 digits), returning the built user, which the table then holds under its key; every other outcome leaves the table unchanged |
| Crud.Get | dynamodb-lambda/lambda/crud_handler.py:98-125 | 500 exactly for an id that is empty or over 2048 UTF-8 bytes, which the store refuses to query; 404 exactly when the user has no version; otherwise 200 with the user's newest version |
| Crud.List | dynamodb-lambda/lambda/crud_handler.py:127-154 | 200 with the newest version of every user, one per user, and the count of users |
| Crud.CopyFields | dynamodb-lambda/lambda/crud_handler.py:184-187 | the copy loop sets each listed attribute the body supplies and keeps every other attribute |
| Crud.Revise | dynamodb-lambda/lambda/crud_handler.py:179-187 | the new version is the current one with fresh timestamp and updated_at, the editable attributes the body supplies, and nothing else changed or added |
| Crud.RevisedKey | dynamodb-lambda/lambda/crud_handler.py:179-187 | a revised version keeps the user's id and creation time, is keyed by the clock reading, can key the email index exactly when a supplied email can, and has serialisable numbers exactly when the supplied ones are |
| Crud.EditsOf | dynamodb-lambda/lambda/crud_handler.py:184-187 | what an update takes from its decoded body: an object's attributes; nothing from an array or a string containing no editable name; a raise for an array or string containing one, and for any other scalar |
| Crud.LoopIsRevise | dynamodb-lambda/lambda/crud_handler.py:179-187 | the copy loop as written, with Python's `in` and `[]` on each JSON type, raises exactly where EditsOf has no edits and otherwise yields the revised copy of them |
| Crud.Update | dynamodb-lambda/lambda/crud_handler.py:156-204 | 500 for an id that is empty or over 2048 UTF-8 bytes; 404 exactly when the body decodes, the id is a string of 1 to 2048 bytes and the user has no version, whatever the JSON type of the body; on 200 the new version revises the newest with the body's edits and is added under (user, clock reading); for an existing user, 200 exactly when the copy loop does not raise, the clock reading is a string of 1 to 1024 UTF-8 bytes, a supplied email is a string of 1 to 2048 bytes and supplied numbers have at most 38 digits; other outcomes leave the table unchanged; the store invariant is kept |
| Crud.WriteVersion | dynamodb-lambda/lambda/crud_handler.py:176-198 | writing the revised newest version succeeds exactly when the clock reading is a string of 1 to 1024 UTF-8 bytes, a supplied email is a string of 1 to 2048 bytes and supplied numbers have at most 38 digits, and adds that version only |
| Crud.Delete | dynamodb-lambda/lambda/crud_handler.py:206-242 | 500 exactly for an id that is empty or over 2048 UTF-8 bytes, leaving the table; 404 exactly when the user has no version; otherwise every version of that user, and no other record, is removed, and the number removed is reported |
| Crud.RemovedCount | dynamodb-lambda/lambda/crud_handler.py:221-229 | removing stored keys shrinks the table by their number |
| Crud.Route | dynamodb-lambda/lambda/crud_handler.py:21-53 | each method reaches its operation; 405 exactly for a method outside POST, GET, PUT, DELETE; only POST, PUT and DELETE can change the table; every route keeps the key invariant |
| CrudLaws.CreateThenGet | dynamodb-lambda/lambda/crud_handler.py:55-119 | after a create under a fresh key, the table is one record larger, every earlier record stays, and a read returns the created user |
| CrudLaws.CreateHeadsHistory | dynamodb-lambda/lambda/crud_handler.py:62-82 | a created user heads its history, in front of any earlier versions of the same id |
| CrudLaws.UpdateThenGet | dynamodb-lambda/lambda/crud_handler.py:156-198 | after an update the table is one record larger, every earlier record stays, and a read returns the new version |
| CrudLaws.UpdateKeepsIdentity | dynamodb-lambda/lambda/crud_handler.py:176-187 | the new version keeps the id and the creation time of the version it revises |
| CrudLaws.UpdateWithoutEdits | dynamodb-lambda/lambda/crud_handler.py:161-198 | a body of any JSON type that names no editable attribute still writes a version of an existing user: its newest version with fresh time attributes |
| CrudLaws.UpdateRaisesOnNonObject | dynamodb-lambda/lambda/crud_handler.py:184-187 | an array or string containing an editable name, and any other JSON scalar, makes the copy loop raise: 500 and nothing written |
| CrudLaws.DeleteThenGet | dynamodb-lambda/lambda/crud_handler.py:206-236 | after a delete the user reads as 404 (an id that is empty or over 2048 UTF-8 bytes as 500), and every other user reads as before |
| CrudLaws.DeleteClearsHistory | dynamodb-lambda/lambda/crud_handler.py:206-229 | after a delete the user has no history left, and every other user's history is as before; a delete of an id that is empty or over 2048 UTF-8 bytes changes nothing |
| CrudLaws.LongIdRefused | dynamodb-lambda/lambda/crud_handler.py:55-242 | an ASCII id of more than 2048 characters makes create, get, update and delete all answer 500 and write nothing |
| CrudLaws.ListAgreesWithGet | dynamodb-lambda/lambda/crud_handler.py:127-148 | in a table that keeps the store invariant, the list shows a user's current record exactly when the user exists, and every listed record is what get_user returns for its user |
| CrudLaws.FoundIffListed | dynamodb-lambda/lambda/crud_handler.py:134-140 | a read finds one of the grouped records exactly when the user has a version |
| IntText.DigitsRoundTrip | dynamodb-lambda/lambda/query_handler.py:186 | the digits `str` writes for a natural number are all digits and read back as that number |
| IntText.ParseDecimal | dynamodb-lambda/lambda/query_handler.py:237-265 | `int` reads back every integer `str` writes, negatives included |
| Query.QueryByUser | dynamodb-lambda/lambda/query_handler.py:87-120 | 400 exactly when user_id is missing or empty; 500 exactly when it is over 2048 UTF-8 bytes; 404 exactly when the user has no version; otherwise 200 with the newest version |
| Query.QueryByEmail | dynamodb-lambda/lambda/query_handler.py:123-156 | 400 exactly when email is missing or empty; 500 exactly when it is over 2048 UTF-8 bytes; 404 exactly when no item has that email; otherwise 200 with every such item once and their count |
| Query.ScanByAge | dynamodb-lambda/lambda/query_handler.py:158-195 | bounds default to 0 and 200; 500 exactly when a bound is unreadable, has more than 38 digits, or the lower exceeds the upper; otherwise, per user, the newest version whose age is in range, the count of such users, and the range as text |
| Query.QueryHistory | dynamodb-lambda/lambda/query_handler.py:197-231 | 400 exactly when user_id is missing or empty; 500 exactly when it is over 2048 UTF-8 bytes; 404 exactly when the user has no version; otherwise every version once, newest first, and their count |
| Query.InsertByCreated | dynamodb-lambda/lambda/query_handler.py:258 | inserting into a list sorted newest-created first keeps it sorted and adds exactly that item |
| Query.SortByCreated | dynamodb-lambda/lambda/query_handler.py:258 | the sort returns a permutation of its input ordered by created_at, newest first |
| Query.QueryRecent | dynamodb-lambda/lambda/query_handler.py:234-273 | 500 exactly when hours is unreadable, is more than a timedelta holds (999999999 days either way), or turns the clock back outside the years 1 to 9999; otherwise the cutoff for those hours, and for every user created after it the newest such version, sorted newest first, with its count and time frame |
| Query.Handler | dynamodb-lambda/lambda/query_handler.py:21-85 | each of the five operation names reaches its operation with its parameters, `hours` defaulting to "24"; the operation list is the answer exactly when the operation parameter names none of them |
| QueryLaws.LatestHeadsHistory | dynamodb-lambda/lambda/query_handler.py:87-225 | when query_by_user finds a user, its answer is the first entry of that user's history |
| QueryLaws.UpdateExtendsHistory | dynamodb-lambda/lambda/crud_handler.py:176-190 | an update puts the new version at the head of the user's history and leaves the rest as it was |
| QueryLaws.PutExtendsHistory | dynamodb-lambda/lambda/query_handler.py:206-219 | a version newer than all of an existing user's heads the history the query returns, ahead of the old history |
| QueryLaws.DeleteEmptiesHistory | dynamodb-lambda/lambda/crud_handler.py:206-229 | after a delete both query_user_history and query_by_user answer 404 for that user |
| QueryLaws.AgeScanAgreesWhenNewestMatches | dynamodb-lambda/lambda/query_handler.py:158-179 | when a user's newest version is in the age range, scan_by_age reports that user at that version and at no other, the version query_by_user returns |
| QueryLaws.AgeScanMayReportOlderVersion | dynamodb-lambda/lambda/query_handler.py:166-179 | the filter runs before the grouping: with an older version aged 30 and a newer one aged 250, the default scan reports the older one while a read returns the newer |
| QueryLaws.AgeScanWithoutBounds | dynamodb-lambda/lambda/query_handler.py:162-186 | with no bounds given the scan uses the range 0 to 200 and reports it as text |
| QueryLaws.RecentDefaultsToADay | dynamodb-lambda/lambda/query_handler.py:40 | with no hours parameter, or an empty one, the cutoff is 24 hours back, and the query fails only when the clock cannot be turned back a day |
| QueryLaws.RecentCutoff | dynamodb-lambda/lambda/query_handler.py:237-273 | for readable hours within a timedelta's range, the query succeeds exactly when the clock can be turned back that far, and reports that cutoff |
| QueryLaws.HoursBeyondTimedelta | dynamodb-lambda/lambda/query_handler.py:237-273 | hours of 24000000000 or more, or below -23999999976, are more than a timedelta holds: 500 whatever the clock reads |
| QueryLaws.TimeframeReadsBack | dynamodb-lambda/lambda/query_handler.py:237-266 | the number in the reported time frame is the number of hours the cutoff used |
| Batch.BatchWrite | dynamodb-lambda/lambda/batch_handler.py:49-97 | 400 exactly for an empty list; 201 exactly when every entry has name and email and the batch writer stores the built users (each accepted by the store, with an id and an email of 1 to 2048 UTF-8 bytes, a clock reading of 1 to 1024 bytes and numbers of at most 38 digits, and no key repeated within a request of 25), returning the built users, each built as create_user builds one, written in order |
| Batch.ReadEachMeaning | dynamodb-lambda/lambda/batch_handler.py:113-123 | each requested id lands in exactly one list: not found when the user has no version, otherwise its newest version is among the found |
| Batch.ReadEachAppend | dynamodb-lambda/lambda/batch_handler.py:113-123 | ids are read one by one: reading two lists in a row gives the two results one after the other |
| Batch.ReadUsers | dynamodb-lambda/lambda/batch_handler.py:99-139 | 400 exactly for an empty list; 500 exactly when an id is empty or over 2048 UTF-8 bytes; otherwise found and not-found agree with get_user id by id, and the totals add up |
| Batch.SamplesAreNewUsers | dynamodb-lambda/lambda/batch_handler.py:144-218 | each sample user is the user create_user would build from the same entry and draw |
| Batch.Populate | dynamodb-lambda/lambda/batch_handler.py:141-235 | 201 exactly when the batch writer stores all eight sample users (each accepted, no key repeated), returning them in order as create_user would build them; 500 leaves the table unchanged |
| Batch.Handler | dynamodb-lambda/lambda/batch_handler.py:19-47 | an unreadable body is 500; batch_write, batch_read and populate_sample_data reach their operations with the request's users and ids; an unknown operation is 400 with the supported list; only a 201 changes the table |
| BatchLaws.SingleEntryIsCreate | dynamodb-lambda/lambda/batch_handler.py:59-91 | a batch of one complete entry writes what create_user writes and succeeds exactly when it does; an incomplete entry is 500 here where create_user gives 400, and neither stores anything |
| BatchLaws.FreshBatchStoresEveryEntry | dynamodb-lambda/lambda/batch_handler.py:59-91 | complete entries with distinct, valid keys not yet stored are all created: one record more per entry, each under its own key, every stored record kept |
| BatchLaws.PopulateWithDistinctIds | dynamodb-lambda/lambda/batch_handler.py:204-229 | with distinct fresh ids of 1 to 2048 UTF-8 bytes and clock readings of 1 to 1024 bytes the eight samples are created: eight records more |
| BatchLaws.ReadUsersSplits | dynamodb-lambda/lambda/batch_handler.py:113-131 | reading a list of ids in two parts succeeds exactly when both parts do, and then gives the two parts' found and not-found lists one after the other |
| Consumer.ProcessRecord | blockchain-etl-pipeline/lambda/data_consumer_lambda.py:33-96 | a record is stored exactly when its currency codes are strings that join to a ticker of 1 to 2048 UTF-8 bytes, the clock reading is a string of 1 to 1024 bytes, and every number it keeps has at most 38 digits; then it is put under (ticker, clock) with the two key attributes set and nothing else changed; otherwise the table is unchanged |
| Consumer.Consume | blockchain-etl-pipeline/lambda/data_consumer_lambda.py:20-101 | the handler answers 200 whatever became of the records and keeps every item under its own key |
| Consumer.ConsumeAppend | blockchain-etl-pipeline/lambda/data_consumer_lambda.py:33 | records are handled one after another: consuming a stream is consuming its first part, then the rest from there |
| Consumer.SkippedRecordIsInvisible | blockchain-etl-pipeline/lambda/data_consumer_lambda.py:44-96 | a record that cannot be stored makes no difference to the table the stream leaves |
| Consumer.StoredRecordSurvives | blockchain-etl-pipeline/lambda/data_consumer_lambda.py:49-81 | a stored record is what its key holds at the end of a stream in which no later record has that key |
| Consumer.LaterRecordsKeep | blockchain-etl-pipeline/lambda/data_consumer_lambda.py:33-96 | records with other keys leave a stored item as it is |

## Left out

- The CDK stacks, IAM, API Gateway and the Kinesis, S3 and producer wiring are infrastructure. Of them, only the table's key schema and the key of the email index are modelled.
- boto3, JSON encoding, `DecimalEncoder`, logging, base64 decoding and `describe_table` are not modelled. A request body is absent, not JSON, or a decoded JSON value: an object, an array of attribute values, a string, or another scalar.
- `datetime.utcnow()` is read more than once per record: three times by `create_user` (crud_handler.py:67-72), by `batch_write_users` (batch_handler.py:68-73) and by `populate_sample_data` (batch_handler.py:210-217), and twice by `update_user` (crud_handler.py:180-181). Each record's readings are one reading here. The real readings differ by microseconds, so the `timestamp`, `created_at` and `updated_at` of one record can differ. `query_recent_users` filters and sorts on `created_at`, not on `timestamp`.
- Crud.BuiltFrom and Crud.UpdatedFrom: the time attributes are stated equal to the one clock reading; the source only guarantees readings taken a few microseconds apart.
- Attribute values are strings, integers and `null`. Floats, booleans, lists and nested objects as attribute values are not modelled.
- DynamoDB refuses an item larger than 400 KB. Its size rule counts UTF-8 bytes of names and strings and only approximately the bytes of a number, so it is not modelled. The members below accept an item of any size:
- `Store.Put`, `Store.PutAll` and `Store.BatchPut`: an item over 400 KB is stored here; the store refuses it.
- `Crud.NewUserIsFiled` and `Crud.Create`: a new user over 400 KB is filed and answered 201 here; the source answers 500.
- `Crud.Update` and `Crud.WriteVersion`: edits that push the new version over 400 KB answer 200 here; the source answers 500.
- `Batch.BatchWrite`: a batch with a built user over 400 KB answers 201 here; the source answers 500.
- `Consumer.ProcessRecord`: a record over 400 KB is stored here; the source's handler logs the refusal and skips the record.
- `IntText.ParseInt` reads an optional sign and ASCII digits. Python's `int` also accepts surrounding whitespace, underscores and non-ASCII digits; those are not modelled.
- Batch entries that are not JSON objects, and `user_ids` entries that are not strings, are not modelled.
- `Query.QueryRecent`: the clock is not modelled, so `cutoffFor` is any function, and which hours turn it back outside the years 1 to 9999 is left to that function. Only `timedelta`'s own range is modelled.
- An event with no `Records` key, which makes the consumer raise, is not modelled.
- `Crud.Route`: a GET whose `pathParameters` is null lists users. Only the absent path id is modelled, and it lists users too.
- `Batch.BatchWrite`: on a 500 the table is returned unchanged, but the source leaves earlier entries stored. An entry without `name` or `email` raises `KeyError` inside the `with table.batch_writer()` block. While that exception propagates, `BatchWriter.__exit__` flushes the whole remaining buffer, so every entry before the failing one is sent, not only those in full requests of 25. When the store refuses a request, the items of earlier requests stay stored.
- `Batch.Handler`: "only a 201 changes the table" rests on the same simplification of `Batch.BatchWrite`.
- `Query.SortByCreated`: Python's sort is stable, but stability is not stated. The contract states order and permutation only.
- DynamoDB returns at most 1 MB per scan or query call, and the handlers never follow `LastEvaluatedKey`. Every operation here reads the whole result, so the following hold only when one page holds it:
- `Crud.List`: every user is listed only when the scan fits in one page.
- `Crud.Delete`: every version is removed only when the user's versions fit in one page.
- `Query.QueryByEmail`: every matching item is returned only when the index query fits in one page.
- `Query.QueryHistory`: every version is returned only when the user's versions fit in one page.
- `Query.ScanByAge`: every matching user is reported only when the scan fits in one page.
- `Query.QueryRecent`: every recently created user is reported only when the scan fits in one page.
- `scan_by_age` applies its age filter before grouping by user, so it can report an older version of a user whose newest version is out of range (`QueryLaws.AgeScanMayReportOlderVersion`).
- A `batch_write_users` entry without `name` or `email` makes the whole request answer 500, where `create_user` answers 400 (`BatchLaws.SingleEntryIsCreate`).

=== FILE: batch.dfy ===
/** `batch_handler.py`: batch writes through boto3's `BatchWriter`, reads of the newest
    version of several users, and a fixed set of sample users, chosen by the
    `operation` member of a JSON request body. */
module Batch {
  import opened Wrappers
  import opened Store
  import opened Versions
  import opened Http
  import Crud

  /** The batch writer stores the items: the store accepts each of them, and no
      request of 25 repeats a key. */
  predicate Writable(items: seq<Fields>) {
    && (forall i :: 0 <= i < |items| ==> Accepted(Users, items[i]))
    && FlushesDistinct(Users, items)
  }

  // ----- batch_write -----

  predicate Complete(entry: Fields) {
    "name" in entry && "email" in entry
  }

  /** The items built from the entries, entry `i` with the `i`-th draw. */
  function Built(users: seq<Fields>, draw: nat -> Draw): seq<Fields>
    requires forall i :: 0 <= i < |users| ==> Complete(users[i])
  {
    seq(|users|, i requires 0 <= i < |users| && Complete(users[i]) => Crud.NewUser(users[i], draw(i)))
  }

  /** `batch_write_users`: an empty list is refused; otherwise every entry is built as
      `create_user` builds one and the items are put in order. An entry without `name`
      or `email`, and a batch the store refuses (an item it refuses, or two items with
      one key in one request of 25), end in 500. */
  function BatchWrite(t: Table, users: seq<Fields>, draw: nat -> Draw): (r: (Table, Response))
    ensures r.1.status in {Created, BadRequest, ServerError}
    ensures r.1.status != Created ==> r.0 == t
    ensures r.1.status == BadRequest <==> users == []
    ensures r.1.status == Created <==>
              && users != []
              && (forall i :: 0 <= i < |users| ==> Complete(users[i]))
              && Writable(Built(users, draw))
    ensures r.1.status == Created ==>
              && r.1.payload.UsersCreated?
              && |r.1.payload.users| == |users|
              && (forall i :: 0 <= i < |users| ==> Crud.BuiltFrom(r.1.payload.users[i], users[i], draw(i)))
              && BatchPut(Users, t, r.1.payload.users) == Some(r.0)
  {
    if users == [] then (t, Response(BadRequest, Error("No users data provided")))
    else if exists i :: 0 <= i < |users| && !Complete(users[i]) then (t, Response(ServerError, Fault))
    else
      var built := Built(users, draw);
      match BatchPut(Users, t, built)
      case None => (t, Response(ServerError, Fault))
      case Some(t') =>
        assert forall i :: 0 <= i < |users| ==> Crud.BuiltFrom(built[i], users[i], draw(i)) by {
          forall i | 0 <= i < |users| ensures Crud.BuiltFrom(built[i], users[i], draw(i)) {
            Crud.NewUserIsBuiltFrom(users[i], draw(i));
          }
        }
        (t', Response(Created, UsersCreated(built)))
  }

  // ----- batch_read -----

  /** Found users and ids not found, side by side. */
  type Reads = (seq<Fields>, seq<string>)

  function Join(p: Reads, q: Reads): Reads {
    (p.0 + q.0, p.1 + q.1)
  }

  /** The keyed query of `batch_read_users`, newest first with `Limit=1`: the newest
      version of a user, if any. */
  function Lookup(t: Table): string -> Option<Fields> {
    u => Latest(t, u)
  }

  /** One turn of the loop of `batch_read_users`: the looked-up version is found, or
      the id is not. */
  function ReadOne(look: string -> Option<Fields>, u: string): Reads {
    match look(u)
    case None => ([], [u])
    case Some(x) => ([x], [])
  }

  /** The loop of `batch_read_users`. */
  function ReadEach(look: string -> Option<Fields>, ids: seq<string>): Reads
    decreases |ids|
  {
    if ids == [] then ([], [])
    else Join(ReadEach(look, ids[..|ids| - 1]), ReadOne(look, ids[|ids| - 1]))
  }

  /** Every id lands in exactly one of the two lists: the ids the lookup misses, in
      `notFound`; what it finds for the others, in `found`. */
  lemma ReadEachMeaning(look: string -> Option<Fields>, ids: seq<string>)
    ensures |ReadEach(look, ids).0| + |ReadEach(look, ids).1| == |ids|
    ensures forall u :: u in ReadEach(look, ids).1 <==> u in ids && look(u).None?
    ensures forall x :: x in ReadEach(look, ids).0 <==> exists u :: u in ids && look(u) == Some(x)
  {
    ReadEachSize(look, ids);
    ReadEachMissing(look, ids);
    ReadEachFound(look, ids);
  }

  lemma {:induction false} ReadEachSize(look: string -> Option<Fields>, ids: seq<string>)
    ensures |ReadEach(look, ids).0| + |ReadEach(look, ids).1| == |ids|
    decreases |ids|
  {
    if ids != [] { ReadEachSize(look, ids[..|ids| - 1]); }
  }

  lemma {:induction false} ReadEachMissing(look: string -> Option<Fields>, ids: seq<string>)
    ensures forall u :: u in ReadEach(look, ids).1 <==> u in ids && look(u).None?
    decreases |ids|
  {
    if ids != [] {
      var prefix, u := ids[..|ids| - 1], ids[|ids| - 1];
      ReadEachMissing(look, prefix);
      assert ids == prefix + [u];
    }
  }

  lemma {:induction false} ReadEachFound(look: string -> Option<Fields>, ids: seq<string>)
    ensures forall x :: x in ReadEach(look, ids).0 <==> exists u :: u in ids && look(u) == Some(x)
    decreases |ids|
  {
    if ids != [] {
      var prefix, u := ids[..|ids| - 1], ids[|ids| - 1];
      ReadEachFound(look, prefix);
      assert ids == prefix + [u];
      forall x | x in ReadEach(look, ids).0 ensures exists v :: v in ids && look(v) == Some(x) {
        if x !in ReadOne(look, u).0 {
          var v :| v in prefix && look(v) == Some(x);
          assert v in ids;
        }
      }
    }
  }

  /** Each id is read on its own: reading `a + b` is reading `a`, then `b`. */
  lemma {:induction false} ReadEachAppend(look: string -> Option<Fields>, a: seq<string>, b: seq<string>)
    ensures ReadEach(look, a + b) == Join(ReadEach(look, a), ReadEach(look, b))
    decreases |b|
  {
    if b == [] {
      assert a + b == a;
      var ra := ReadEach(look, a);
      assert ra.0 + [] == ra.0 && ra.1 + [] == ra.1;
    } else {
      var b', u := b[..|b| - 1], b[|b| - 1];
      ReadEachAppend(look, a, b');
      var one := ReadOne(look, u);
      assert ReadEach(look, a + b) == Join(ReadEach(look, a + b'), one) by {
        assert (a + b)[..|a + b| - 1] == a + b';
        assert (a + b)[|a + b| - 1] == u;
      }
      assert ReadEach(look, b) == Join(ReadEach(look, b'), one);
      var ra, rb' := ReadEach(look, a), ReadEach(look, b');
      assert (ra.0 + rb'.0) + one.0 == ra.0 + (rb'.0 + one.0);
      assert (ra.1 + rb'.1) + one.1 == ra.1 + (rb'.1 + one.1);
    }
  }

  /** `batch_read_users`. The service refuses a query on an id that is empty or longer
      than a partition key may be, which ends the whole request in 500. */
  function ReadUsers(t: Table, ids: seq<string>): (r: Response)
    ensures r.status in {Ok, BadRequest, ServerError}
    ensures r.status == BadRequest <==> ids == []
    ensures r.status == ServerError <==> ids != [] && exists u :: u in ids && !PartitionKeyText(u)
    ensures r.status == Ok ==>
              && r.payload.BatchRead?
              && r.payload.totalRequested == |ids| == |r.payload.found| + |r.payload.notFound|
              && r.payload.totalFound == |r.payload.found|
              && (forall u :: u in r.payload.notFound <==> u in ids && Crud.Get(t, u).status == NotFound)
              && (forall x :: x in r.payload.found <==> exists u :: u in ids && Crud.Get(t, u) == Response(Ok, UserFound(x)))
  {
    if ids == [] then Response(BadRequest, Error("No user IDs provided"))
    else if exists u :: u in ids && !PartitionKeyText(u) then Response(ServerError, Fault)
    else
      var (found, notFound) := ReadEach(Lookup(t), ids);
      ReadEachMeaning(Lookup(t), ids);
      Response(Ok, BatchRead(found, notFound, |ids|, |found|))
  }

  // ----- populate_sample_data -----

  const Samples: seq<Fields> := [
    map["name" := Str("John Doe"), "email" := Str("john.doe@example.com"), "age" := Num(30),
        "phone" := Str("+1234567890"), "address" := Str("123 Main St, New York, NY")],
    map["name" := Str("Jane Smith"), "email" := Str("jane.smith@example.com"), "age" := Num(28),
        "phone" := Str("+1234567891"), "address" := Str("456 Oak Ave, Los Angeles, CA")],
    map["name" := Str("Bob Johnson"), "email" := Str("bob.johnson@example.com"), "age" := Num(35),
        "phone" := Str("+1234567892"), "address" := Str("789 Pine St, Chicago, IL")],
    map["name" := Str("Alice Brown"), "email" := Str("alice.brown@example.com"), "age" := Num(26),
        "phone" := Str("+1234567893"), "address" := Str("321 Elm St, Houston, TX")],
    map["name" := Str("Charlie Wilson"), "email" := Str("charlie.wilson@example.com"), "age" := Num(42),
        "phone" := Str("+1234567894"), "address" := Str("654 Maple Dr, Phoenix, AZ")],
    map["name" := Str("Diana Davis"), "email" := Str("diana.davis@example.com"), "age" := Num(31),
        "phone" := Str("+1234567895"), "address" := Str("987 Cedar Ln, Philadelphia, PA")],
    map["name" := Str("Frank Miller"), "email" := Str("frank.miller@example.com"), "age" := Num(29),
        "phone" := Str("+1234567896"), "address" := Str("147 Birch Rd, San Antonio, TX")],
    map["name" := Str("Grace Taylor"), "email" := Str("grace.taylor@example.com"), "age" := Num(33),
        "phone" := Str("+1234567897"), "address" := Str("258 Spruce St, San Diego, CA")]
  ]

  /** The item the sample loop builds: a fresh id, the clock reading, and the five sample
      attributes. */
  function SampleUser(sample: Fields, d: Draw): Fields
    requires "name" in sample && "email" in sample && "age" in sample
    requires "phone" in sample && "address" in sample
  {
    map[
      "user_id" := Str(d.id),
      "timestamp" := Str(d.now),
      "name" := sample["name"],
      "email" := sample["email"],
      "age" := sample["age"],
      "phone" := sample["phone"],
      "address" := sample["address"],
      "created_at" := Str(d.now),
      "updated_at" := Str(d.now)]
  }

  function SampleUsers(draw: nat -> Draw): seq<Fields> {
    seq(|Samples|, i requires 0 <= i < |Samples| => SampleUser(Samples[i], draw(i)))
  }

  /** `populate_sample_data`: the eight sample users, sent in one batch-writer request.
      Each is the item `batch_write_users` would build from the same entry and draw. */
  function Populate(t: Table, draw: nat -> Draw): (r: (Table, Response))
    ensures r.1.status in {Created, ServerError}
    ensures r.1.status == Created <==> Writable(SampleUsers(draw))
    ensures r.1.status == ServerError ==> r.0 == t
    ensures r.1.status == Created ==>
              && r.1.payload.UsersCreated?
              && |r.1.payload.users| == |Samples|
              && (forall i :: 0 <= i < |Samples| ==> r.1.payload.users[i] == Crud.NewUser(Samples[i], draw(i)))
              && BatchPut(Users, t, r.1.payload.users) == Some(r.0)
  {
    var users := SampleUsers(draw);
    match BatchPut(Users, t, users)
    case None => (t, Response(ServerError, Fault))
    case Some(t') =>
      SamplesAreNewUsers(draw);
      (t', Response(Created, UsersCreated(users)))
  }

  lemma SampleIsNewUser(sample: Fields, d: Draw)
    requires "name" in sample && "email" in sample && "age" in sample
    requires "phone" in sample && "address" in sample && "user_id" !in sample
    ensures SampleUser(sample, d) == Crud.NewUser(sample, d)
  {
  }

  lemma SamplesAreNewUsers(draw: nat -> Draw)
    ensures forall i :: 0 <= i < |Samples| ==>
              && Complete(Samples[i])
              && SampleUsers(draw)[i] == Crud.NewUser(Samples[i], draw(i))
  {
    forall i | 0 <= i < |Samples|
      ensures Complete(Samples[i]) && SampleUsers(draw)[i] == Crud.NewUser(Samples[i], draw(i))
    {
      assert Samples[i].Keys == {"name", "email", "age", "phone", "address"};
      SampleIsNewUser(Samples[i], draw(i));
    }
  }

  // ----- dispatch -----

  datatype BatchRequest = BatchRequest(operation: Option<string>, users: seq<Fields>, userIds: seq<string>)

  /** The event's body: unreadable (absent, not JSON, or not a JSON object) or a
      request. `users` and `user_ids` default to empty lists. */
  datatype BatchEvent = Unreadable | Readable(request: BatchRequest)

  const InvalidOperation := "Invalid operation. Supported: batch_write, batch_read, populate_sample_data"

  /** `lambda_handler`. */
  function Handler(t: Table, ev: BatchEvent, draw: nat -> Draw): (r: (Table, Response))
    ensures ev.Unreadable? ==> r == (t, Response(ServerError, Fault))
    ensures ev.Readable? && ev.request.operation == Some("batch_write") ==>
              r == BatchWrite(t, ev.request.users, draw)
    ensures ev.Readable? && ev.request.operation == Some("batch_read") ==>
              r == (t, ReadUsers(t, ev.request.userIds))
    ensures ev.Readable? && ev.request.operation == Some("populate_sample_data") ==> r == Populate(t, draw)
    ensures ev.Readable? && ev.request.operation !in {Some("batch_write"), Some("batch_read"), Some("populate_sample_data")}
            ==> r == (t, Response(BadRequest, Error(InvalidOperation)))
    ensures r.1.status != Created ==> r.0 == t
  {
    match ev
    case Unreadable => (t, Response(ServerError, Fault))
    case Readable(req) =>
      match req.operation
      case Some("batch_write") => BatchWrite(t, req.users, draw)
      case Some("batch_read") => (t, ReadUsers(t, req.userIds))
      case Some("populate_sample_data") => Populate(t, draw)
      case _ => (t, Response(BadRequest, Error(InvalidOperation)))
  }
}

=== FILE: batch_laws.dfy ===
/** How the batch operations relate to the single-user operations. */
module BatchLaws {
  import opened Wrappers
  import opened Store
  import opened Versions
  import opened Http
  import opened Batch
  import Crud

  /** A batch of one complete entry writes what `create_user` writes for the same
      object and draw, and succeeds exactly when it does. An entry without `name` or
      `email` is a 400 for `create_user` but a 500 here, and neither stores anything. */
  lemma SingleEntryIsCreate(t: Table, entry: Fields, draw: nat -> Draw)
    ensures Complete(entry) ==>
              && BatchWrite(t, [entry], draw).0 == Crud.Create(t, Object(entry), draw(0)).0
              && (BatchWrite(t, [entry], draw).1.status == Created
                  <==> Crud.Create(t, Object(entry), draw(0)).1.status == Created)
    ensures !Complete(entry) ==>
              && BatchWrite(t, [entry], draw) == (t, Response(ServerError, Fault))
              && Crud.Create(t, Object(entry), draw(0)).1.status == BadRequest
              && Crud.Create(t, Object(entry), draw(0)).0 == t
  {
    if Complete(entry) {
      var d := draw(0);
      var user := Crud.NewUser(entry, d);
      assert Built([entry], draw) == [user];
      assert PutAll(Users, t, [user]) == Put(Users, t, user);
      assert BatchPut(Users, t, [user]) == PutAll(Users, t, [user]);
      Crud.NewUserIsFiled(t, entry, d);
      assert Crud.Create(t, Object(entry), d) ==
             match Put(Users, t, user)
             case None => (t, Response(ServerError, Fault))
             case Some(t') => (t', Response(Created, UserCreated(user)));
    }
  }

  /** The key a built item is stored under. */
  function EntryKey(users: seq<Fields>, draw: nat -> Draw, i: nat): Key
    requires i < |users| && Complete(users[i]) && Crud.Storable(users[i], draw(i))
  {
    (Crud.IdOf(users[i], draw(i)).s, draw(i).now)
  }

  /** Complete entries whose keys are valid, distinct and not yet stored are all
      created: one record more per entry, each under its own key, every stored record
      kept. */
  lemma FreshBatchStoresEveryEntry(t: Table, users: seq<Fields>, draw: nat -> Draw)
    requires users != []
    requires forall i :: 0 <= i < |users| ==> Complete(users[i]) && Crud.Storable(users[i], draw(i))
    requires forall i, j :: 0 <= i < j < |users| ==> EntryKey(users, draw, i) != EntryKey(users, draw, j)
    requires forall i :: 0 <= i < |users| ==> EntryKey(users, draw, i) !in t
    ensures var r := BatchWrite(t, users, draw);
            && r.1.status == Created
            && |r.0| == |t| + |users|
            && (forall i :: 0 <= i < |users| ==>
                  EntryKey(users, draw, i) in r.0 && r.0[EntryKey(users, draw, i)] == r.1.payload.users[i])
            && (forall k :: k in t ==> k in r.0 && r.0[k] == t[k])
  {
    var built := Built(users, draw);
    var keys := seq(|users|, i requires 0 <= i < |users| => EntryKey(users, draw, i));
    forall i | 0 <= i < |users| ensures HasKey(Users, built[i], keys[i]) {
      Crud.NewUserIsFiled(t, users[i], draw(i));
    }
    PutAllFresh(Users, t, built, keys);
    BatchPutOfDistinct(Users, t, built, keys);
    assert BatchWrite(t, users, draw) == (PutAll(Users, t, built).value, Response(Created, UsersCreated(built)));
  }

  /** With clock readings and ids the store takes as keys, the ids pairwise different
      and none of the keys stored yet,
      the eight sample users are all created: eight records more. */
  lemma PopulateWithDistinctIds(t: Table, draw: nat -> Draw)
    requires forall i :: 0 <= i < |Samples| ==> PartitionKeyText(draw(i).id) && SortKeyText(draw(i).now)
    requires forall i, j :: 0 <= i < j < |Samples| ==> draw(i).id != draw(j).id
    requires forall i :: 0 <= i < |Samples| ==> (draw(i).id, draw(i).now) !in t
    ensures Populate(t, draw).1.status == Created
    ensures |Populate(t, draw).1.payload.users| == 8
    ensures |Populate(t, draw).0| == |t| + 8
  {
    var users := SampleUsers(draw);
    var keys := seq(|Samples|, i requires 0 <= i < |Samples| => (draw(i).id, draw(i).now));
    forall i | 0 <= i < |users| ensures HasKey(Users, users[i], keys[i]) && Accepted(Users, users[i]) {
      SampleAccepted(i, draw);
    }
    PutAllFresh(Users, t, users, keys);
    BatchPutOfDistinct(Users, t, users, keys);
    assert Populate(t, draw) == (PutAll(Users, t, users).value, Response(Created, UsersCreated(users)));
  }

  lemma SampleAccepted(i: nat, draw: nat -> Draw)
    requires i < |Samples| && PartitionKeyText(draw(i).id) && SortKeyText(draw(i).now)
    ensures HasKey(Users, SampleUsers(draw)[i], (draw(i).id, draw(i).now))
    ensures Accepted(Users, SampleUsers(draw)[i])
  {
    SampleEmails();
    var sample := Samples[i];
    assert "name" in sample && "email" in sample && "age" in sample && "phone" in sample && "address" in sample;
    SampleUserAccepted(sample, draw(i));
  }

  lemma SampleUserAccepted(sample: Fields, d: Draw)
    requires "name" in sample && "email" in sample && "age" in sample
    requires "phone" in sample && "address" in sample
    requires KeyValue(sample["email"]) && Fits(sample)
    requires PartitionKeyText(d.id) && SortKeyText(d.now)
    ensures HasKey(Users, SampleUser(sample, d), (d.id, d.now))
    ensures Accepted(Users, SampleUser(sample, d))
  {
    var user := SampleUser(sample, d);
    UsersIndexable(user);
    forall a | a in user && user[a].Num? ensures NumberFits(user[a].n) {
      assert a in sample;
    }
  }

  /** A batch read leaves the table alone and finds, for each id, what a single read
      finds; reading a list in two parts gives the two parts' results one after the
      other. */
  lemma ReadUsersSplits(t: Table, a: seq<string>, b: seq<string>)
    requires a != [] && b != []
    ensures var r, ra, rb := ReadUsers(t, a + b), ReadUsers(t, a), ReadUsers(t, b);
            && (r.status == Ok <==> ra.status == Ok && rb.status == Ok)
            && r.status == Ok ==>
            && r.payload.found == ra.payload.found + rb.payload.found
            && r.payload.notFound == ra.payload.notFound + rb.payload.notFound
  {
    ReadEachAppend(Lookup(t), a, b);
  }

  /** Every sample email is a short string, and so can key the index; every sample
      number can be serialised. */
  lemma SampleEmails()
    ensures forall i :: 0 <= i < |Samples| ==> KeyValue(Samples[i]["email"])
    ensures forall i :: 0 <= i < |Samples| ==> Fits(Samples[i])
  {
    forall i | 0 <= i < |Samples| ensures KeyValue(Samples[i]["email"]) && Fits(Samples[i]) {
      assert Samples[i]["email"].Str? && 0 < |Samples[i]["email"].s| <= PartitionKeyBytes / 4;
      assert Samples[i].Keys == {"name", "email", "age", "phone", "address"};
    }
  }
}

=== FILE: consumer.dfy ===
/** `data_consumer_lambda.py`: a Kinesis consumer that turns each exchange-rate record
    into an item of the crypto table, keyed by ticker and arrival time. A record that
    cannot be stored is skipped; the others are stored regardless. */
module Consumer {
  import opened Wrappers
  import opened Store
  import opened Http

  /** Partition key `ticker`, sort key `timestamp`; no secondary index. */
  const Ticker := Schema("ticker", "timestamp", {})

  /** One Kinesis record after base64 decoding, with the clock reading taken while it is
      processed: `data` is None when the payload is not JSON or is JSON other than an
      object. */
  datatype Arrival = Arrival(data: Option<Fields>, now: string)

  /** Python's `+` on two attribute values: strings concatenate, integers add, anything
      else raises `TypeError`. */
  function Plus(a: Value, b: Value): Option<Value> {
    match (a, b)
    case (Str(x), Str(y)) => Some(Str(x + y))
    case (Num(x), Num(y)) => Some(Num(x + y))
    case _ => None
  }

  /** The record with `ticker` and `timestamp` set (added, or overwritten when present);
      None where the currency codes are missing or cannot be added. */
  function Enrich(data: Fields, now: string): Option<Fields> {
    if "from_currency_code" !in data || "to_currency_code" !in data then None
    else
      match Plus(data["from_currency_code"], data["to_currency_code"])
      case None => None
      case Some(ticker) => Some(data["ticker" := ticker]["timestamp" := Str(now)])
  }

  /** The required-keys check: `ticker` and `timestamp` present, not null, not "". */
  predicate HasRequiredKeys(item: Fields) {
    forall key :: key in ["ticker", "timestamp"] ==> key in item && item[key] != Null && item[key] != Str("")
  }

  /** `item` is `data` with the two key attributes set: every other attribute of the
      record kept as it was, nothing else added. */
  ghost predicate EnrichedFrom(item: Fields, data: Fields, now: string) {
    && item.Keys == data.Keys + {"ticker", "timestamp"}
    && "from_currency_code" in data && "to_currency_code" in data
    && data["from_currency_code"].Str? && data["to_currency_code"].Str?
    && item["ticker"] == Str(data["from_currency_code"].s + data["to_currency_code"].s)
    && item["timestamp"] == Str(now)
    && forall f :: f in data && f !in {"ticker", "timestamp"} ==> item[f] == data[f]
  }

  /** The `ticker` a record is stored under when its codes are strings. */
  function TickerOf(data: Fields): string
    requires "from_currency_code" in data && "to_currency_code" in data
    requires data["from_currency_code"].Str? && data["to_currency_code"].Str?
  {
    data["from_currency_code"].s + data["to_currency_code"].s
  }

  /** Both currency codes are strings that together make a partition-key value, the
      clock reading is a sort-key value, and every number the record keeps can be
      serialised: the records that get stored. */
  predicate Storable(a: Arrival) {
    && a.data.Some?
    && "from_currency_code" in a.data.value && "to_currency_code" in a.data.value
    && a.data.value["from_currency_code"].Str? && a.data.value["to_currency_code"].Str?
    && PartitionKeyText(TickerOf(a.data.value))
    && SortKeyText(a.now)
    && Fits(a.data.value - {"ticker", "timestamp"})
  }

  /** One turn of the loop: a skipped record leaves the table as it was; a stored one is
      put under (ticker, now), replacing any item with that key. */
  function ProcessRecord(t: Table, a: Arrival): (r: Table)
    ensures !Storable(a) ==> r == t
    ensures Storable(a) ==>
              var key := (TickerOf(a.data.value), a.now);
              && r.Keys == t.Keys + {key}
              && EnrichedFrom(r[key], a.data.value, a.now)
              && forall k :: k in t && k != key ==> r[k] == t[k]
    ensures KeyedBy(Ticker, t) ==> KeyedBy(Ticker, r)
  {
    match a.data
    case None => t
    case Some(data) =>
      match Enrich(data, a.now)
      case None => t
      case Some(item) =>
        assert item["ticker"].Str? ==> (Fits(item) <==> Fits(data - {"ticker", "timestamp"})) by {
          if item["ticker"].Str? { EnrichedFits(data, item); }
        }
        if !HasRequiredKeys(item) then t
        else
          match Put(Ticker, t, item)
          case None => t
          case Some(t') => t'
  }

  /** Setting the two key attributes to strings leaves only the record's other numbers
      to serialise. */
  lemma EnrichedFits(data: Fields, item: Fields)
    requires "ticker" in item && item["ticker"].Str? && "timestamp" in item && item["timestamp"].Str?
    requires item.Keys == data.Keys + {"ticker", "timestamp"}
    requires forall f :: f in data && f !in {"ticker", "timestamp"} ==> item[f] == data[f]
    ensures Fits(item) <==> Fits(data - {"ticker", "timestamp"})
  {
    var rest := data - {"ticker", "timestamp"};
    if Fits(rest) {
      forall a | a in item && item[a].Num? ensures NumberFits(item[a].n) {
        assert a in rest;
      }
    }
    if Fits(item) {
      forall a | a in rest && rest[a].Num? ensures NumberFits(rest[a].n) {
        assert item[a] == rest[a];
      }
    }
  }

  /** `handler`: every record in order, then 200 whatever became of them. */
  function Consume(t: Table, records: seq<Arrival>): (r: (Table, Response))
    ensures r.1 == Response(Ok, Completed)
    ensures KeyedBy(Ticker, t) ==> KeyedBy(Ticker, r.0)
    decreases |records|
  {
    if records == [] then (t, Response(Ok, Completed))
    else
      var last := records[|records| - 1];
      var (t', _) := Consume(t, records[..|records| - 1]);
      (ProcessRecord(t', last), Response(Ok, Completed))
  }

  /** Records are handled one after another: consuming `a + b` is consuming `a`, then
      `b` from where `a` left the table. */
  lemma {:induction false} ConsumeAppend(t: Table, a: seq<Arrival>, b: seq<Arrival>)
    ensures Consume(t, a + b).0 == Consume(Consume(t, a).0, b).0
    decreases |b|
  {
    if b == [] {
      assert a + b == a;
    } else {
      ConsumeAppend(t, a, b[..|b| - 1]);
      assert (a + b)[..|a + b| - 1] == a + b[..|b| - 1];
      assert (a + b)[|a + b| - 1] == b[|b| - 1];
    }
  }

  /** A record that cannot be stored makes no difference to the rest of the stream. */
  lemma SkippedRecordIsInvisible(t: Table, a: seq<Arrival>, x: Arrival, b: seq<Arrival>)
    requires !Storable(x)
    ensures Consume(t, a + [x] + b).0 == Consume(t, a + b).0
  {
    ConsumeAppend(t, a + [x], b);
    ConsumeAppend(t, a, b);
    assert (a + [x])[..|a + [x]| - 1] == a;
  }

  /** A stored record is what a read of its key returns after a stream in which no later
      record has the same key. */
  lemma StoredRecordSurvives(t: Table, a: seq<Arrival>, x: Arrival, b: seq<Arrival>)
    requires Storable(x)
    requires forall i :: 0 <= i < |b| ==>
               !Storable(b[i]) || (TickerOf(b[i].data.value), b[i].now) != (TickerOf(x.data.value), x.now)
    ensures var key := (TickerOf(x.data.value), x.now);
            var r := Consume(t, a + [x] + b).0;
            key in r && EnrichedFrom(r[key], x.data.value, x.now)
  {
    ConsumeAppend(t, a + [x], b);
    assert (a + [x])[..|a + [x]| - 1] == a;
    LaterRecordsKeep(ProcessRecord(Consume(t, a).0, x), b, (TickerOf(x.data.value), x.now));
  }

  lemma {:induction false} LaterRecordsKeep(t: Table, b: seq<Arrival>, key: Key)
    requires key in t
    requires forall i :: 0 <= i < |b| ==> !Storable(b[i]) || (TickerOf(b[i].data.value), b[i].now) != key
    ensures key in Consume(t, b).0 && Consume(t, b).0[key] == t[key]
    decreases |b|
  {
    if b != [] {
      LaterRecordsKeep(t, b[..|b| - 1], key);
    }
  }
}

=== FILE: crud.dfy ===
/** `crud_handler.py`: create, read, list, update and delete users, routed by HTTP
    method. Writes never change a stored record; they add a version or remove all of
    a user's versions. */
module Crud {
  import opened Wrappers
  import opened Store
  import opened Versions
  import opened Http

  const UserNotFound := "User not found"

  /** The attributes `update_user` copies from the request body. */
  const Editable := {"name", "email", "age", "phone", "address"}

  /** The attributes copied only when the request supplies them. */
  const Optional := {"phone", "address"}

  /** `body.get('user_id', str(uuid.uuid4()))`. */
  function IdOf(body: Fields, d: Draw): Value {
    if "user_id" in body then body["user_id"] else Str(d.id)
  }

  /** A user item as `create_user` and `batch_write_users` build it from a request
      object. The three clock readings the source takes are one reading here. */
  function NewUser(body: Fields, d: Draw): Fields
    requires "name" in body && "email" in body
  {
    var base := map[
      "user_id" := IdOf(body, d),
      "timestamp" := Str(d.now),
      "name" := body["name"],
      "email" := body["email"],
      "age" := if "age" in body then body["age"] else Num(0),
      "created_at" := Str(d.now),
      "updated_at" := Str(d.now)];
    var withPhone := if "phone" in body then base["phone" := body["phone"]] else base;
    if "address" in body then withPhone["address" := body["address"]] else withPhone
  }

  /** The construction rules of a new user: the supplied or freshly drawn id, the three
      time attributes equal to the clock reading, name and email as given, age
      defaulting to 0, phone and address present exactly when supplied, nothing else. */
  ghost predicate BuiltFrom(user: Fields, body: Fields, d: Draw) {
    && user.Keys == {"user_id", "timestamp", "name", "email", "age", "created_at", "updated_at"}
                    + (body.Keys * Optional)
    && user["user_id"] == IdOf(body, d)
    && user["timestamp"] == Str(d.now)
    && user["created_at"] == Str(d.now)
    && user["updated_at"] == Str(d.now)
    && "name" in body && user["name"] == body["name"]
    && "email" in body && user["email"] == body["email"]
    && user["age"] == (if "age" in body then body["age"] else Num(0))
    && forall f :: f in Optional && f in body ==> user[f] == body[f]
  }

  lemma NewUserIsBuiltFrom(body: Fields, d: Draw)
    requires "name" in body && "email" in body
    ensures BuiltFrom(NewUser(body, d), body, d)
  {
  }

  /** An `email` the object supplies can key the `email-index`. */
  predicate EmailUsable(body: Fields) {
    "email" in body ==> KeyValue(body["email"])
  }

  /** Every editable attribute the object supplies that is a number can be serialised. */
  predicate ValuesFit(body: Fields) {
    forall f :: f in Editable && f in body && body[f].Num? ==> NumberFits(body[f].n)
  }

  /** The store accepts the new user: its id is a string the store takes as a
      partition key, the clock reading one it takes as a sort key, its email can key
      the index, and its numbers can be serialised. */
  predicate Storable(body: Fields, d: Draw) {
    IdOf(body, d).Str? && PartitionKeyText(IdOf(body, d).s) && SortKeyText(d.now) && EmailUsable(body) && ValuesFit(body)
  }

  /** The store files a new user under its id and the clock reading when both are
      usable, and refuses it otherwise. */
  lemma NewUserIsFiled(t: Table, body: Fields, d: Draw)
    requires "name" in body && "email" in body
    ensures BuiltFrom(NewUser(body, d), body, d)
    ensures Storable(body, d) ==>
              Put(Users, t, NewUser(body, d)) == Some(t[(IdOf(body, d).s, d.now) := NewUser(body, d)])
    ensures !Storable(body, d) ==> Put(Users, t, NewUser(body, d)).None?
  {
    var user := NewUser(body, d);
    assert user["user_id"] == IdOf(body, d) && user["timestamp"] == Str(d.now);
    assert user["email"] == body["email"];
    UsersIndexable(user);
    NewUserFits(body, d);
    if Storable(body, d) {
      assert HasKey(Users, user, (IdOf(body, d).s, d.now));
    }
  }

  lemma NewUserFits(body: Fields, d: Draw)
    requires "name" in body && "email" in body
    ensures IdOf(body, d).Str? ==> (Fits(NewUser(body, d)) <==> ValuesFit(body))
  {
    var user := NewUser(body, d);
    if IdOf(body, d).Str? && ValuesFit(body) {
      forall a | a in user && user[a].Num? ensures NumberFits(user[a].n) {
        assert (a in Editable && a in body) || a == "age";
      }
    } else if !ValuesFit(body) {
      var f :| f in Editable && f in body && body[f].Num? && !NumberFits(body[f].n);
      assert user[f] == body[f];
    }
  }

  /** `create_user`. */
  function Create(t: Table, body: Body, d: Draw): (r: (Table, Response))
    ensures r.1.status in {Created, BadRequest, ServerError}
    ensures r.1.status != Created ==> r.0 == t
    ensures r.1.status == BadRequest
            <==> body.Missing? || (body.Object? && ("name" !in body.fields || "email" !in body.fields))
    ensures r.1.status == Created
            <==> body.Object? && "name" in body.fields && "email" in body.fields && Storable(body.fields, d)
    ensures r.1.status == Created ==>
              && r.1.payload.UserCreated?
              && BuiltFrom(r.1.payload.user, body.fields, d)
              && r.0 == t[(IdOf(body.fields, d).s, d.now) := r.1.payload.user]
    ensures KeyedBy(Users, t) ==> KeyedBy(Users, r.0)
  {
    match body
    case Missing => (t, Response(BadRequest, Error("Missing required field: 'body'")))
    case Unparsable | Array(_) | Text(_) | Scalar => (t, Response(ServerError, Fault))
    case Object(fields) =>
      if "name" !in fields then (t, Response(BadRequest, Error("Missing required field: 'name'")))
      else if "email" !in fields then (t, Response(BadRequest, Error("Missing required field: 'email'")))
      else
        var user := NewUser(fields, d);
        NewUserIsFiled(t, fields, d);
        match Put(Users, t, user)
        case None => (t, Response(ServerError, Fault))
        case Some(t') => (t', Response(Created, UserCreated(user)))
  }

  /** `get_user`: the newest version of the user, or 404. The store refuses a query on
      an id that is empty or longer than a partition key may be, which ends in 500. */
  function Get(t: Table, u: string): (r: Response)
    ensures r.status in {Ok, NotFound, ServerError}
    ensures r.status == ServerError <==> !PartitionKeyText(u)
    ensures r.status == NotFound <==> PartitionKeyText(u) && forall k :: k in t ==> k.0 != u
    ensures r.status == Ok ==> exists k :: IsLatest(t, k) && k.0 == u && r.payload == UserFound(t[k])
  {
    if !PartitionKeyText(u) then Response(ServerError, Fault)
    else
    match Latest(t, u)
    case None => Response(NotFound, Error(UserNotFound))
    case Some(user) => Response(Ok, UserFound(user))
  }

  /** `list_users`: a scan grouped to the newest version of every user. */
  function List(t: Table, order: seq<Key>): (r: Response)
    requires ScanOf(t, order)
    ensures r.status == Ok && r.payload.UserList?
    ensures r.payload.count == |r.payload.users| == |UserIds(t)|
    ensures exists ks :: LatestPerUser(t, ks) && r.payload.users == Items(t, ks)
  {
    var ks := GroupLatest(order);
    GroupOfScan(t, order);
    var users := Items(t, ks);
    Response(Ok, UserList(users, |users|))
  }

  /** The new version `update_user` writes: the current version with fresh `timestamp`
      and `updated_at`, and the editable attributes the body supplies; every other
      attribute of the body is ignored, every other attribute of the current version
      kept. */
  ghost predicate UpdatedFrom(user: Fields, current: Fields, body: Fields, now: string) {
    && user.Keys == current.Keys + {"timestamp", "updated_at"} + (body.Keys * Editable)
    && user["timestamp"] == Str(now)
    && user["updated_at"] == Str(now)
    && (forall f :: f in Editable && f in body ==> user[f] == body[f])
    && (forall f :: f in current && f !in {"timestamp", "updated_at"} && !(f in Editable && f in body)
          ==> user[f] == current[f])
  }

  /** The `for field in allowed_fields` loop: copies each listed attribute the body
      supplies. */
  function CopyFields(m: Fields, body: Fields, fs: seq<string>): (r: Fields)
    ensures r.Keys == m.Keys + (set f | f in fs && f in body)
    ensures forall f :: f in fs && f in body ==> r[f] == body[f]
    ensures forall f :: f in m && !(f in fs && f in body) ==> r[f] == m[f]
    decreases |fs|
  {
    if fs == [] then m
    else
      var f := fs[|fs| - 1];
      var copied := CopyFields(m, body, fs[..|fs| - 1]);
      assert forall g :: g in fs <==> g in fs[..|fs| - 1] || g == f;
      if f in body then copied[f := body[f]] else copied
  }

  /** `allowed_fields`, in the order the loop visits them. */
  const EditableOrder := ["name", "email", "age", "phone", "address"]

  /** The current version with `timestamp` and `updated_at` set to the clock reading. */
  function Stamped(current: Fields, now: string): Fields {
    current["timestamp" := Str(now)]["updated_at" := Str(now)]
  }

  function Revise(current: Fields, body: Fields, now: string): (user: Fields)
    ensures UpdatedFrom(user, current, body, now)
  {
    RevisedFrom(current, body, now);
    CopyFields(Stamped(current, now), body, EditableOrder)
  }

  lemma RevisedFrom(current: Fields, body: Fields, now: string)
    ensures UpdatedFrom(CopyFields(Stamped(current, now), body, EditableOrder), current, body, now)
  {
    var stamped := Stamped(current, now);
    var user := CopyFields(stamped, body, EditableOrder);
    EditableOrderLists(body);
    assert stamped.Keys == current.Keys + {"timestamp", "updated_at"};
    assert "timestamp" !in Editable && "updated_at" !in Editable;
  }

  lemma EditableOrderLists(body: Fields)
    ensures forall f :: f in EditableOrder <==> f in Editable
    ensures (set f | f in EditableOrder && f in body) == body.Keys * Editable
  {
  }

  /** A revised copy keeps the user's id and creation time, carries the new clock
      reading as its sort key, and can key the index when the current version can and
      a supplied email can, and its numbers can be serialised when the current
      version's and the supplied ones can. */
  lemma RevisedKey(current: Fields, k: Key, body: Fields, now: string)
    requires HasKey(Users, current, k)
    ensures var user := Revise(current, body, now);
            && "user_id" in user && user["user_id"] == Str(k.0)
            && ("created_at" in current ==> user["created_at"] == current["created_at"])
            && (SortKeyText(now) ==> HasKey(Users, user, (k.0, now)))
            && (!SortKeyText(now) ==> forall k' :: !HasKey(Users, user, k'))
            && (Indexable(Users, current) ==> (Indexable(Users, user) <==> EmailUsable(body)))
            && (Fits(current) ==> (Fits(user) <==> ValuesFit(body)))
  {
    var user := Revise(current, body, now);
    assert "user_id" !in Editable && "created_at" !in Editable;
    assert user["user_id"] == current["user_id"];
    UsersIndexable(current);
    UsersIndexable(user);
    RevisedFits(current, body, now);
  }

  lemma RevisedFits(current: Fields, body: Fields, now: string)
    ensures Fits(current) ==> (Fits(Revise(current, body, now)) <==> ValuesFit(body))
  {
    var user := Revise(current, body, now);
    if Fits(current) {
      if ValuesFit(body) {
        forall a | a in user && user[a].Num? ensures NumberFits(user[a].n) {
          assert (a in Editable && a in body) || a in current;
        }
      } else {
        var f :| f in Editable && f in body && body[f].Num? && !NumberFits(body[f].n);
        assert user[f] == body[f];
      }
    }
  }

  /** Python's `field in body` on a decoded JSON value: a key of an object, an element
      of an array, a substring of a string; None where `in` raises `TypeError`. */
  function Contains(body: Body, f: string): Option<bool> {
    match body
    case Object(fields) => Some(f in fields)
    case Array(items) => Some(Str(f) in items)
    case Text(s) => Some(Occurs(f, s))
    case _ => None
  }

  /** `f` is a substring of `s`. */
  predicate Occurs(f: string, s: string)
    decreases |s|
  {
    |f| <= |s| && (s[..|f|] == f || (s != [] && Occurs(f, s[1..])))
  }

  /** Python's `body[field]` for a field the body contains: an object's value; arrays
      and strings cannot be indexed by a string. */
  function Member(body: Body, f: string): Option<Value> {
    match body
    case Object(fields) => if f in fields then Some(fields[f]) else None
    case _ => None
  }

  /** The `for field in allowed_fields` loop over `fs` as written, starting from `m`:
      None as soon as `in` or `[]` raises. */
  function CopyLoop(m: Fields, body: Body, fs: seq<string>): Option<Fields>
    decreases |fs|
  {
    if fs == [] then Some(m)
    else
      match Contains(body, fs[0])
      case None => None
      case Some(false) => CopyLoop(m, body, fs[1..])
      case Some(true) =>
        match Member(body, fs[0])
        case None => None
        case Some(v) => CopyLoop(m[fs[0] := v], body, fs[1..])
  }

  /** The attributes an update takes from its body: all of an object's (only the
      editable ones are copied), none from an array or a string that contains no
      editable name; None where the copy loop raises. */
  function EditsOf(body: Body): (r: Option<Fields>)
    ensures body.Object? ==> r == Some(body.fields)
    ensures !Parsed(body) || body.Scalar? ==> r.None?
    ensures r.Some? && !body.Object? ==> r.value == map[]
    ensures body.Array? ==> (r.Some? <==> forall f :: f in Editable ==> Str(f) !in body.items)
    ensures body.Text? ==> (r.Some? <==> forall f :: f in Editable ==> !Occurs(f, body.s))
  {
    match body
    case Object(fields) => Some(fields)
    case _ =>
      EditableOrderLists(map[]);
      if forall i :: 0 <= i < |EditableOrder| ==> Contains(body, EditableOrder[i]) == Some(false)
      then Some(map[])
      else None
  }

  /** The loop as written computes the revised copy of the edits, and raises exactly
      where `EditsOf` has none. */
  lemma LoopIsRevise(current: Fields, body: Body, now: string)
    ensures CopyLoop(Stamped(current, now), body, EditableOrder)
            == match EditsOf(body) case None => None case Some(e) => Some(Revise(current, e, now))
  {
    var m := Stamped(current, now);
    match body
    case Object(fields) =>
      CopyLoopObject(m, fields, EditableOrder);
      assert CopyLoop(m, body, EditableOrder).value == CopyFields(m, fields, EditableOrder);
    case _ =>
      CopyLoopOther(m, body, EditableOrder);
      assert CopyFields(m, map[], EditableOrder) == m;
  }

  lemma {:induction false} CopyLoopObject(m: Fields, fields: Fields, fs: seq<string>)
    ensures CopyLoop(m, Object(fields), fs).Some?
    ensures CopyLoop(m, Object(fields), fs).value.Keys == m.Keys + (set f | f in fs && f in fields)
    ensures forall f :: f in fs && f in fields ==> CopyLoop(m, Object(fields), fs).value[f] == fields[f]
    ensures forall f :: f in m && !(f in fs && f in fields) ==> CopyLoop(m, Object(fields), fs).value[f] == m[f]
    decreases |fs|
  {
    if fs != [] {
      var f := fs[0];
      var rest := fs[1..];
      assert forall g :: g in fs <==> g == f || g in rest;
      if f in fields {
        CopyLoopObject(m[f := fields[f]], fields, rest);
      } else {
        CopyLoopObject(m, fields, rest);
      }
    }
  }

  lemma {:induction false} CopyLoopOther(m: Fields, body: Body, fs: seq<string>)
    requires !body.Object?
    ensures CopyLoop(m, body, fs)
            == if forall i :: 0 <= i < |fs| ==> Contains(body, fs[i]) == Some(false) then Some(m) else None
    decreases |fs|
  {
    if fs != [] {
      CopyLoopOther(m, body, fs[1..]);
      assert forall i :: 1 <= i < |fs| ==> fs[1..][i - 1] == fs[i];
    }
  }

  /** `update_user`: a new version of an existing user. The body is decoded first, then
      the user looked up (a query on an id no partition key can hold is refused), then
      the copy loop runs. */
  function Update(t: Table, body: Body, u: string, now: string): (r: (Table, Response))
    ensures r.1.status in {Ok, NotFound, ServerError}
    ensures r.1.status != Ok ==> r.0 == t
    ensures r.1.status == NotFound <==> Parsed(body) && PartitionKeyText(u) && forall k :: k in t ==> k.0 != u
    ensures r.1.status == Ok ==>
              && EditsOf(body).Some? && r.1.payload.UserUpdated?
              && exists k :: IsLatest(t, k) && k.0 == u
                             && UpdatedFrom(r.1.payload.user, t[k], EditsOf(body).value, now)
    ensures KeyedBy(Users, t) && Parsed(body) && (exists k :: k in t && k.0 == u) ==>
              (r.1.status == Ok <==>
                 EditsOf(body).Some? && SortKeyText(now) && EmailUsable(EditsOf(body).value) && ValuesFit(EditsOf(body).value))
    ensures r.1.status == Ok && KeyedBy(Users, t) ==> r.0 == t[(u, now) := r.1.payload.user]
    ensures KeyedBy(Users, t) ==> KeyedBy(Users, r.0)
  {
    if !Parsed(body) || !PartitionKeyText(u) then (t, Response(ServerError, Fault))
    else
      match LatestKey(t, u)
      case None => (t, Response(NotFound, Error(UserNotFound)))
      case Some(k) =>
        match EditsOf(body)
        case None => (t, Response(ServerError, Fault))
        case Some(edits) => WriteVersion(t, k, edits, now)
  }

  /** The write half of `update_user`: the revised copy of the newest version `k`. */
  function WriteVersion(t: Table, k: Key, body: Fields, now: string): (r: (Table, Response))
    requires IsLatest(t, k)
    ensures r.1.status in {Ok, ServerError}
    ensures r.1.status != Ok ==> r.0 == t
    ensures r.1.status == Ok ==> r.1.payload.UserUpdated? && UpdatedFrom(r.1.payload.user, t[k], body, now)
    ensures KeyedBy(Users, t) ==> (r.1.status == Ok <==> SortKeyText(now) && EmailUsable(body) && ValuesFit(body))
    ensures r.1.status == Ok && KeyedBy(Users, t) ==> r.0 == t[(k.0, now) := r.1.payload.user]
    ensures KeyedBy(Users, t) ==> KeyedBy(Users, r.0)
  {
    var user := Revise(t[k], body, now);
    assert KeyedBy(Users, t) ==>
             && (SortKeyText(now) ==> HasKey(Users, user, (k.0, now)))
             && (!SortKeyText(now) ==> forall k' :: !HasKey(Users, user, k'))
             && (Indexable(Users, user) <==> EmailUsable(body))
             && (Fits(user) <==> ValuesFit(body)) by {
      if KeyedBy(Users, t) { RevisedKey(t[k], k, body, now); }
    }
    match Put(Users, t, user)
    case None => (t, Response(ServerError, Fault))
    case Some(t') => (t', Response(Ok, UserUpdated(user)))
  }

  /** `delete_user`: removes every version of the user. The store refuses a query on an
      id no partition key can hold, which ends in 500. */
  function Delete(t: Table, u: string): (r: (Table, Response))
    ensures r.1.status in {Ok, NotFound, ServerError}
    ensures r.1.status == ServerError <==> !PartitionKeyText(u)
    ensures r.1.status == NotFound <==> PartitionKeyText(u) && forall k :: k in t ==> k.0 != u
    ensures !PartitionKeyText(u) ==> r.0 == t
    ensures PartitionKeyText(u) ==> forall k :: k in r.0 <==> k in t && k.0 != u
    ensures forall k :: k in r.0 ==> r.0[k] == t[k]
    ensures r.1.status == Ok ==>
              r.1.payload == UserDeleted(|VersionSet(t, u)|) && |r.0| == |t| - |VersionSet(t, u)|
  {
    var vs := VersionSet(t, u);
    if !PartitionKeyText(u) then (t, Response(ServerError, Fault))
    else if vs == {} then
      assert forall k :: k in t ==> k.0 != u by {
        forall k | k in t ensures k.0 != u { assert k.0 == u ==> k in vs; }
      }
      (t, Response(NotFound, Error(UserNotFound)))
    else
      RemovedCount(t, vs);
      (t - vs, Response(Ok, UserDeleted(|vs|)))
  }

  lemma RemovedCount(t: Table, gone: set<Key>)
    requires gone <= t.Keys
    ensures |t - gone| == |t| - |gone|
  {
    var rest := (t - gone).Keys;
    assert t.Keys == rest + gone && rest * gone == {};
  }

  /** An API Gateway proxy event: `httpMethod`, the `{user_id}` path parameter, `body`. */
  datatype Request = Request(httpMethod: Option<string>, pathUserId: Option<string>, body: Body)

  /** `lambda_handler`: routes on the HTTP method. */
  function Route(t: Table, req: Request, d: Draw, order: seq<Key>): (r: (Table, Response))
    requires ScanOf(t, order)
    ensures req.httpMethod == Some("POST") ==> r == Create(t, req.body, d)
    ensures req.httpMethod == Some("GET") && req.pathUserId.Some? ==> r == (t, Get(t, req.pathUserId.value))
    ensures req.httpMethod == Some("GET") && req.pathUserId.None? ==> r == (t, List(t, order))
    ensures req.httpMethod == Some("PUT") && req.pathUserId.Some? ==>
              r == Update(t, req.body, req.pathUserId.value, d.now)
    ensures req.httpMethod == Some("DELETE") && req.pathUserId.Some? ==> r == Delete(t, req.pathUserId.value)
    ensures r.1.status == MethodNotAllowed
            <==> req.httpMethod.Some? && req.httpMethod.value !in {"POST", "GET", "PUT", "DELETE"}
    ensures req.httpMethod != Some("POST") && req.httpMethod != Some("PUT") && req.httpMethod != Some("DELETE")
            ==> r.0 == t
    ensures KeyedBy(Users, t) ==> KeyedBy(Users, r.0)
  {
    match req.httpMethod
    case None => (t, Response(ServerError, Fault))
    case Some(m) =>
      if m == "POST" then Create(t, req.body, d)
      else if m == "GET" then
        match req.pathUserId
        case Some(u) => (t, Get(t, u))
        case None => (t, List(t, order))
      else if m == "PUT" || m == "DELETE" then
        match req.pathUserId
        case None => (t, Response(ServerError, Fault))
        case Some(u) => if m == "PUT" then Update(t, req.body, u, d.now) else Delete(t, u)
      else (t, Response(MethodNotAllowed, Error("Method not allowed")))
  }
}

=== FILE: crud_laws.dfy ===
/** How the CRUD operations relate to one another: a write followed by a read, and the
    table invariant every write keeps. */
module CrudLaws {
  import opened Wrappers
  import opened Store
  import opened Versions
  import opened Http
  import opened Crud
  import Lex

  /** A created user is what a following read returns, and it is one record more: the
      earlier records, the user's earlier versions among them, stay as they were. */
  lemma CreateThenGet(t: Table, body: Body, d: Draw)
    requires Create(t, body, d).1.status == Created
    requires Fresh(t, IdOf(body.fields, d).s, d.now)
    ensures var r := Create(t, body, d);
            var k := (IdOf(body.fields, d).s, d.now);
            && k !in t
            && |r.0| == |t| + 1
            && (forall k' :: k' in t ==> k' in r.0 && r.0[k'] == t[k'])
            && Get(r.0, k.0) == Response(Ok, UserFound(r.1.payload.user))
  {
    var r := Create(t, body, d);
    PutFresh(t, (IdOf(body.fields, d).s, d.now), r.1.payload.user);
  }

  /** A created user heads its history, in front of any earlier versions. */
  lemma CreateHeadsHistory(t: Table, body: Body, d: Draw)
    requires Create(t, body, d).1.status == Created
    requires Fresh(t, IdOf(body.fields, d).s, d.now)
    ensures var k := (IdOf(body.fields, d).s, d.now);
            VersionKeys(Create(t, body, d).0, k.0) == [k] + VersionKeys(t, k.0)
  {
    var r := Create(t, body, d);
    VersionKeysAfterPut(t, (IdOf(body.fields, d).s, d.now), r.1.payload.user);
  }

  /** An update is one record more, and the new version is what a following read
      returns. */
  lemma UpdateThenGet(t: Table, body: Body, u: string, now: string)
    requires KeyedBy(Users, t)
    requires Update(t, body, u, now).1.status == Ok
    requires Fresh(t, u, now)
    ensures var r := Update(t, body, u, now);
            && |r.0| == |t| + 1
            && (forall k :: k in t ==> k in r.0 && r.0[k] == t[k])
            && Get(r.0, u) == Response(Ok, UserFound(r.1.payload.user))
  {
    var r := Update(t, body, u, now);
    assert r.0 == t[(u, now) := r.1.payload.user];
    PutFresh(t, (u, now), r.1.payload.user);
  }

  /** The new version keeps the id and the creation time of the version it revises. */
  lemma UpdateKeepsIdentity(t: Table, body: Body, u: string, now: string)
    requires KeyedBy(Users, t)
    requires Update(t, body, u, now).1.status == Ok
    ensures var user := Update(t, body, u, now).1.payload.user;
            var previous := Latest(t, u).value;
            && user["user_id"] == previous["user_id"] == Str(u)
            && ("created_at" in previous ==> user["created_at"] == previous["created_at"])
  {
    UpdateRevisesLatest(t, body, u, now);
    var k := LatestKey(t, u).value;
    assert HasKey(Users, t[k], k);
    RevisedKey(t[k], k, EditsOf(body).value, now);
  }

  lemma UpdateRevisesLatest(t: Table, body: Body, u: string, now: string)
    requires Update(t, body, u, now).1.status == Ok
    ensures EditsOf(body).Some? && LatestKey(t, u).Some? && LatestKey(t, u).value in t
    ensures Latest(t, u) == Some(t[LatestKey(t, u).value])
    ensures Update(t, body, u, now).1.payload.user == Revise(t[LatestKey(t, u).value], EditsOf(body).value, now)
  {
    assert EditsOf(body).Some? && LatestKey(t, u).Some?;
    var k := LatestKey(t, u).value;
    assert Update(t, body, u, now) == WriteVersion(t, k, EditsOf(body).value, now);
  }

  /** A body that names no editable attribute, whatever its JSON type, still writes a
      version of an existing user: the newest one with fresh time attributes. */
  lemma UpdateWithoutEdits(t: Table, body: Body, u: string, now: string)
    requires KeyedBy(Users, t)
    requires forall f :: f in Editable ==> Contains(body, f) == Some(false)
    requires exists k :: k in t && k.0 == u
    requires SortKeyText(now)
    ensures Update(t, body, u, now).1.status == Ok
    ensures Update(t, body, u, now).1.payload.user == Stamped(Latest(t, u).value, now)
  {
    EditableOrderLists(map[]);
    assert Parsed(body);
    var edits := EditsOf(body).value;
    assert forall f :: f in Editable ==> f !in edits;
    UpdateRevisesLatest(t, body, u, now);
    ReviseWithoutEdits(t[LatestKey(t, u).value], edits, now);
  }

  lemma ReviseWithoutEdits(current: Fields, edits: Fields, now: string)
    requires forall f :: f in Editable ==> f !in edits
    ensures Revise(current, edits, now) == Stamped(current, now)
  {
    var user := Revise(current, edits, now);
    assert user.Keys == Stamped(current, now).Keys;
  }

  /** A decoded array or string that contains an editable name, and any other JSON
      scalar, makes the copy loop raise: 500 and nothing written, for an existing user
      as for any other. */
  lemma UpdateRaisesOnNonObject(t: Table, body: Body, u: string, now: string)
    requires Parsed(body) && !body.Object?
    requires exists f :: f in Editable && Contains(body, f) != Some(false)
    requires exists k :: k in t && k.0 == u
    ensures Update(t, body, u, now) == (t, Response(ServerError, Fault))
  {
  }

  /** After a delete the user reads as not found (an id no partition key can hold is
      refused either way),
      and every other user reads as before. */
  lemma DeleteThenGet(t: Table, u: string, other: string)
    requires other != u
    ensures var t' := Delete(t, u).0;
            && Get(t', u).status == (if !PartitionKeyText(u) then ServerError else NotFound)
            && Get(t', other) == Get(t, other)
  {
    if !PartitionKeyText(u) { return; }
    DeleteLeaves(t, u);
    var gone := t - VersionSet(t, u);
    GoneUserNotFound(t, u);
    assert Latest(gone, other) == Latest(t, other) by {
      VersionKeysAfterRemove(t, u, other);
    }
  }

  /** After a delete the user has no history, and every other user's history is as
      before; a delete of an id no partition key can hold changes nothing. */
  lemma DeleteClearsHistory(t: Table, u: string, other: string)
    requires other != u
    ensures PartitionKeyText(u) ==> VersionKeys(Delete(t, u).0, u) == []
    ensures !PartitionKeyText(u) ==> Delete(t, u).0 == t
    ensures VersionKeys(Delete(t, u).0, other) == VersionKeys(t, other)
  {
    if !PartitionKeyText(u) { return; }
    DeleteLeaves(t, u);
    VersionKeysAfterRemove(t, u, other);
  }

  lemma DeleteLeaves(t: Table, u: string)
    requires PartitionKeyText(u)
    ensures Delete(t, u).0 == t - VersionSet(t, u)
  {
    if VersionKeys(t, u) == [] {
      assert forall k :: k in t ==> k.0 != u;
      assert VersionSet(t, u) == {};
      assert t - {} == t;
    }
  }

  lemma GoneUserNotFound(t: Table, u: string)
    requires PartitionKeyText(u)
    ensures Get(t - VersionSet(t, u), u).status == NotFound
  {
    assert forall k :: k in t - VersionSet(t, u) ==> k.0 != u;
  }

  /** The list holds the newest version of a user exactly when that user exists, and
      every listed record is what a read of its user returns. */
  lemma ListAgreesWithGet(t: Table, order: seq<Key>, u: string)
    requires KeyedBy(Users, t)
    requires ScanOf(t, order)
    ensures var users := List(t, order).payload.users;
            && ((exists i :: 0 <= i < |users| && Get(t, u) == Response(Ok, UserFound(users[i])))
                <==> u in UserIds(t))
            && forall i :: 0 <= i < |users| ==> Get(t, GroupLatest(order)[i].0) == Response(Ok, UserFound(users[i]))
  {
    var ks := GroupLatest(order);
    ListIsGrouped(t, order);
    GetOfGrouped(t, ks);
    FoundIffListed(t, ks, u);
  }

  lemma ListIsGrouped(t: Table, order: seq<Key>)
    requires ScanOf(t, order)
    ensures LatestPerUser(t, GroupLatest(order))
    ensures forall i :: 0 <= i < |GroupLatest(order)| ==> GroupLatest(order)[i] in t
    ensures List(t, order).payload.users == Items(t, GroupLatest(order))
  {
    GroupOfScan(t, order);
  }

  /** Reading the user of a newest version returns that version. */
  lemma GetOfGrouped(t: Table, ks: seq<Key>)
    requires KeyedBy(Users, t)
    requires forall i :: 0 <= i < |ks| ==> ks[i] in t && IsLatest(t, ks[i])
    ensures forall i :: 0 <= i < |ks| ==> Get(t, ks[i].0) == Response(Ok, UserFound(t[ks[i]]))
  {
    forall i | 0 <= i < |ks| ensures Get(t, ks[i].0) == Response(Ok, UserFound(t[ks[i]])) {
      LatestKeyIs(t, ks[i]);
    }
  }

  /** A read finds one of the grouped records exactly when the user has a version. */
  lemma FoundIffListed(t: Table, ks: seq<Key>, u: string)
    requires KeyedBy(Users, t)
    requires LatestPerUser(t, ks)
    requires forall i :: 0 <= i < |ks| ==> ks[i] in t
    ensures (exists i :: 0 <= i < |ks| && Get(t, u) == Response(Ok, UserFound(Items(t, ks)[i])))
            <==> u in UserIds(t)
  {
    var users := Items(t, ks);
    if u in UserIds(t) {
      assert u in UsersOf(ks);
      var i :| 0 <= i < |ks| && ks[i].0 == u;
      LatestKeyIs(t, ks[i]);
      assert Get(t, u) == Response(Ok, UserFound(users[i]));
    } else {
      assert Get(t, u).status != Ok;
    }
  }

  /** An ASCII id longer than 2048 characters is more than a partition key holds:
      creating, reading, updating and deleting that user all end in 500, and nothing
      is written. */
  lemma LongIdRefused(t: Table, u: string, fields: Fields, body: Body, d: Draw)
    requires |u| > PartitionKeyBytes
    requires forall i :: 0 <= i < |u| ==> u[i] as int < 0x80
    requires "name" in fields && "email" in fields && "user_id" in fields && fields["user_id"] == Str(u)
    ensures Create(t, Object(fields), d) == (t, Response(ServerError, Fault))
    ensures Get(t, u) == Response(ServerError, Fault)
    ensures Update(t, body, u, d.now) == (t, Response(ServerError, Fault))
    ensures Delete(t, u) == (t, Response(ServerError, Fault))
  {
    AsciiSize(u);
    NewUserIsFiled(t, fields, d);
  }
}

=== FILE: http.dfy ===
/** The HTTP-shaped results of the Lambda handlers: a status code and a JSON body,
    the body kept as an abstract payload. */
module Http {
  import opened Store

  const Ok := 200
  const Created := 201
  const BadRequest := 400
  const NotFound := 404
  const MethodNotAllowed := 405
  const ServerError := 500

  /** The `body` of an API Gateway event, after `json.loads`: absent from the event,
      not JSON text (or `null` in place of text), or the decoded JSON value: an object,
      an array, a string, or any other scalar (number, boolean, `null`). */
  datatype Body =
    | Missing
    | Unparsable
    | Object(fields: Fields)
    | Array(items: seq<Value>)
    | Text(s: string)
    | Scalar

  /** `json.loads` returned a value. */
  predicate Parsed(body: Body) {
    !body.Missing? && !body.Unparsable?
  }

  /** What building one record reads from `uuid.uuid4()` and from
      `datetime.utcnow().isoformat()`. */
  datatype Draw = Draw(id: string, now: string)

  datatype Payload =
    | UserCreated(user: Fields)
    | UserFound(user: Fields)
    | UserUpdated(user: Fields)
    | UserDeleted(versionsRemoved: nat)
    | UserList(users: seq<Fields>, count: nat)
    | EmailMatches(users: seq<Fields>, count: nat)
    | AgeMatches(users: seq<Fields>, count: nat, ageRange: string)
    | RecentUsers(users: seq<Fields>, count: nat, timeframe: string, cutoff: string)
    | History(userId: string, versions: seq<Fields>, versionCount: nat)
    | Operations(names: seq<string>)
    | UsersCreated(users: seq<Fields>)
    | BatchRead(found: seq<Fields>, notFound: seq<string>, totalRequested: nat, totalFound: nat)
    | Completed
    | Error(message: string)
      /** An exception caught at a handler boundary; its text is not modelled. */
    | Fault

  datatype Response = Response(status: int, payload: Payload)
}

=== FILE: inttext.dfy ===
/** Decimal text for integers: Python's `int(text)` on a query-string parameter and
    `str(n)` in an f-string. */
module IntText {
  import opened Wrappers

  predicate IsDigit(c: char) {
    '0' <= c <= '9'
  }

  predicate AllDigits(s: string) {
    forall i :: 0 <= i < |s| ==> IsDigit(s[i])
  }

  /** The value of a run of decimal digits, most significant first. */
  function DigitsValue(s: string): nat
    requires AllDigits(s)
    decreases |s|
  {
    if s == [] then 0
    else DigitsValue(s[..|s| - 1]) * 10 + (s[|s| - 1] as int - '0' as int)
  }

  /** `int(text)` for an optional sign followed by one or more ASCII digits; None where
      `int` raises `ValueError`. */
  function ParseInt(text: string): Option<int> {
    if |text| > 0 && (text[0] == '-' || text[0] == '+') then
      var digits := text[1..];
      if |digits| > 0 && AllDigits(digits) then
        var v: int := DigitsValue(digits);
        Some(if text[0] == '-' then -v else v)
      else None
    else if |text| > 0 && AllDigits(text) then Some(DigitsValue(text))
    else None
  }

  function DigitChar(d: nat): char
    requires d < 10
  {
    ('0' as int + d) as char
  }

  /** `str(n)` for a natural number. */
  function Digits(n: nat): string
    decreases n
  {
    if n < 10 then [DigitChar(n)] else Digits(n / 10) + [DigitChar(n % 10)]
  }

  /** `str(n)`. */
  function Decimal(n: int): string {
    if n < 0 then "-" + Digits(-n) else Digits(n)
  }

  lemma {:induction false} DigitsRoundTrip(n: nat)
    ensures |Digits(n)| > 0 && AllDigits(Digits(n))
    ensures DigitsValue(Digits(n)) == n
    decreases n
  {
    if n >= 10 {
      DigitsRoundTrip(n / 10);
      var s := Digits(n);
      assert s[..|s| - 1] == Digits(n / 10);
    }
  }

  /** What `str` writes, `int` reads back. */
  lemma ParseDecimal(n: int)
    ensures ParseInt(Decimal(n)) == Some(n)
  {
    if n < 0 {
      DigitsRoundTrip(-n);
      assert Decimal(n)[1..] == Digits(-n);
    } else {
      DigitsRoundTrip(n);
    }
  }
}

=== FILE: lex.dfy ===
/** Python's `<` on `str`: lexicographic by code point, a proper prefix sorting
    first. DynamoDB orders string sort keys by their UTF-8 bytes, which agrees with
    code-point order, so the same relation describes the store's ordering.
    (Dafny's own `<` on sequences means "proper prefix", which is not this.) */
module Lex {

  predicate Less(a: string, b: string)
    decreases |a|
  {
    if |b| == 0 then false
    else if |a| == 0 then true
    else if a[0] != b[0] then a[0] < b[0]
    else Less(a[1..], b[1..])
  }

  predicate LessEq(a: string, b: string) {
    a == b || Less(a, b)
  }

  /** The textbook definition: `a` is a proper prefix of `b`, or the two agree up to
      some position where `a` has the smaller character. */
  ghost predicate Below(a: string, b: string) {
    || (|a| < |b| && a == b[..|a|])
    || exists i :: 0 <= i < |a| && i < |b| && a[..i] == b[..i] && a[i] < b[i]
  }

  lemma LessIsBelow(a: string, b: string)
    ensures Less(a, b) <==> Below(a, b)
  {
    if Less(a, b) { LessBelow(a, b); }
    if Below(a, b) { BelowLess(a, b); }
  }

  lemma {:induction false} LessBelow(a: string, b: string)
    requires Less(a, b)
    ensures Below(a, b)
    decreases |a|
  {
    if |a| == 0 {
      assert a == b[..0];
    } else if a[0] != b[0] {
      assert a[..0] == b[..0];
    } else {
      var a', b' := a[1..], b[1..];
      LessBelow(a', b');
      if |a'| < |b'| && a' == b'[..|a'|] {
        assert a == [a[0]] + a' && b[..|a|] == [b[0]] + b'[..|a'|];
      } else {
        var i :| 0 <= i < |a'| && i < |b'| && a'[..i] == b'[..i] && a'[i] < b'[i];
        assert a[..i + 1] == [a[0]] + a'[..i] && b[..i + 1] == [b[0]] + b'[..i];
      }
    }
  }

  lemma {:induction false} BelowLess(a: string, b: string)
    requires Below(a, b)
    ensures Less(a, b)
    decreases |a|
  {
    if |a| > 0 {
      if a[0] != b[0] {
        BelowHead(a, b);
      } else {
        var a', b' := a[1..], b[1..];
        if |a| < |b| && a == b[..|a|] {
          assert a' == b'[..|a'|];
        } else {
          var i :| 0 <= i < |a| && i < |b| && a[..i] == b[..i] && a[i] < b[i];
          assert i > 0;
          assert a'[..i - 1] == a[..i][1..] && b'[..i - 1] == b[..i][1..];
        }
        BelowLess(a', b');
      }
    }
  }

  lemma BelowHead(a: string, b: string)
    requires |a| > 0 && |b| > 0 && Below(a, b)
    ensures a[0] <= b[0]
  {
    if |a| < |b| && a == b[..|a|] {
      assert b[..|a|][0] == b[0];
    } else {
      var i :| 0 <= i < |a| && i < |b| && a[..i] == b[..i] && a[i] < b[i];
      if i > 0 { assert a[..i][0] == a[0] && b[..i][0] == b[0]; }
    }
  }

  lemma {:induction false} Irreflexive(a: string)
    ensures !Less(a, a)
    decreases |a|
  {
    if |a| > 0 { Irreflexive(a[1..]); }
  }

  lemma {:induction false} Asymmetric(a: string, b: string)
    ensures Less(a, b) ==> !Less(b, a)
    decreases |a|
  {
    if |a| > 0 && |b| > 0 && a[0] == b[0] { Asymmetric(a[1..], b[1..]); }
  }

  lemma {:induction false} Transitive(a: string, b: string, c: string)
    requires Less(a, b) && Less(b, c)
    ensures Less(a, c)
    decreases |a|
  {
    if |a| > 0 && a[0] == b[0] && b[0] == c[0] {
      Transitive(a[1..], b[1..], c[1..]);
    }
  }

  lemma {:induction false} Total(a: string, b: string)
    ensures a == b || Less(a, b) || Less(b, a)
    decreases |a|
  {
    if |a| > 0 && |b| > 0 && a[0] == b[0] {
      Total(a[1..], b[1..]);
      if a[1..] == b[1..] {
        assert a == [a[0]] + a[1..] && b == [b[0]] + b[1..];
      }
    }
  }

  lemma AsymmetricAll()
    ensures forall a, b :: Less(a, b) ==> !Less(b, a)
  {
    forall a, b ensures Less(a, b) ==> !Less(b, a) { Asymmetric(a, b); }
  }

  lemma LessEqTransitive(a: string, b: string, c: string)
    requires LessEq(a, b) && LessEq(b, c)
    ensures LessEq(a, c)
  {
    if a != b && b != c { Transitive(a, b, c); }
  }

  predicate IsMax(m: string, s: set<string>) {
    m in s && forall x :: x in s ==> LessEq(x, m)
  }

  lemma {:induction false} MaxExists(s: set<string>)
    requires s != {}
    ensures exists m :: IsMax(m, s)
    decreases s
  {
    var x :| x in s;
    if s == {x} {
      assert IsMax(x, s);
    } else {
      MaxExists(s - {x});
      var m :| IsMax(m, s - {x});
      Total(x, m);
      if Less(m, x) {
        forall y | y in s ensures LessEq(y, x) {
          if y != x { LessEqTransitive(y, m, x); }
        }
        assert IsMax(x, s);
      } else {
        assert IsMax(m, s);
      }
    }
  }

  /** The greatest string of a non-empty set. */
  function Max(s: set<string>): (m: string)
    requires s != {}
    ensures m in s
    ensures forall x :: x in s ==> LessEq(x, m)
  {
    MaxExists(s);
    AsymmetricAll();
    var m :| IsMax(m, s);
    m
  }

  ghost predicate StrictlyDescending(r: seq<string>) {
    forall i, j :: 0 <= i < j < |r| ==> Less(r[j], r[i])
  }

  /** The strings of `s`, greatest first: the order in which a DynamoDB query with
      `ScanIndexForward=False` returns the sort keys of one partition. */
  function SortedDesc(s: set<string>): (r: seq<string>)
    ensures |r| == |s|
    ensures forall x :: x in r <==> x in s
    ensures StrictlyDescending(r)
    decreases |s|
  {
    if s == {} then []
    else
      var m := Max(s);
      var rest := SortedDesc(s - {m});
      assert forall j :: 0 <= j < |rest| ==> Less(rest[j], m) by {
        forall j | 0 <= j < |rest| ensures Less(rest[j], m) {
          assert rest[j] in s - {m};
        }
      }
      [m] + rest
  }
}

=== FILE: query.dfy ===
/** The query Lambda: five read-only access patterns over the users table, chosen by
    the `operation` query-string parameter. None of them writes, so each returns only
    a response. */
module Query {
  import opened Wrappers
  import opened Store
  import opened Versions
  import opened Http
  import opened IntText
  import Lex
  import Crud

  /** `queryStringParameters`; an event without them behaves as an empty map. */
  type Params = map<string, string>

  const OperationNames: seq<string> :=
    ["query_by_user", "query_by_email", "scan_by_age", "query_user_history", "query_recent_users"]

  function Param(params: Params, name: string): Option<string> {
    if name in params then Some(params[name]) else None
  }

  /** `int(text) if text else default`; None where `int` raises. */
  function IntOr(text: Option<string>, default: int): Option<int> {
    if text.None? || text.value == "" then Some(default) else ParseInt(text.value)
  }

  // ----- query_by_user -----

  /** An absent or empty `user_id` is a 400; one too long for a partition key is
      refused by the store, which ends in 500. */
  function QueryByUser(t: Table, userId: Option<string>): (r: Response)
    ensures r.status in {Ok, BadRequest, NotFound, ServerError}
    ensures r.status == BadRequest <==> userId.None? || userId.value == ""
    ensures r.status == ServerError <==> userId.Some? && userId.value != "" && !PartitionKeyText(userId.value)
    ensures r.status == NotFound <==>
      userId.Some? && PartitionKeyText(userId.value) && forall k :: k in t ==> k.0 != userId.value
    ensures r.status == Ok ==> exists k :: IsLatest(t, k) && k.0 == userId.value && r.payload == UserFound(t[k])
    ensures r.status == ServerError ==> r.payload == Fault
    ensures r.status in {BadRequest, NotFound} ==> r.payload.Error?
  {
    if userId.None? || userId.value == "" then Response(BadRequest, Error("user_id parameter is required"))
    else Crud.Get(t, userId.value)
  }

  // ----- query_by_email -----

  /** The item is in the `email-index` partition of `email`. */
  predicate HasEmail(item: Fields, email: string) {
    "email" in item && item["email"] == Str(email)
  }

  function EmailFilter(email: string): Fields -> bool {
    item => HasEmail(item, email)
  }

  /** `order` stands for the unspecified order in which the index query returns the
      partition's items. An email too long for the index's partition key is refused by
      the store, which ends in 500. */
  function QueryByEmail(t: Table, order: seq<Key>, email: Option<string>): (r: Response)
    requires ScanOf(t, order)
    ensures r.status in {Ok, BadRequest, NotFound, ServerError}
    ensures r.status == BadRequest <==> email.None? || email.value == ""
    ensures r.status == ServerError <==> email.Some? && email.value != "" && !PartitionKeyText(email.value)
    ensures r.status == ServerError ==> r.payload == Fault
    ensures r.status == NotFound <==>
      email.Some? && PartitionKeyText(email.value) && forall k :: k in t ==> !HasEmail(t[k], email.value)
    ensures r.status in {BadRequest, NotFound} ==> r.payload.Error?
    ensures r.status == Ok ==>
      && r.payload.EmailMatches?
      && r.payload.count == |r.payload.users| == |set k | k in t && HasEmail(t[k], email.value)|
      && exists ks ::
           && Distinct(ks)
           && (forall k :: k in ks <==> k in t && HasEmail(t[k], email.value))
           && r.payload.users == Items(t, ks)
  {
    if email.None? || email.value == "" then Response(BadRequest, Error("email parameter is required"))
    else if !PartitionKeyText(email.value) then Response(ServerError, Fault)
    else
      var ks := Where(t, order, EmailFilter(email.value));
      if ks == [] then
        assert forall k :: k in t ==> !HasEmail(t[k], email.value) by {
          forall k | k in t ensures !HasEmail(t[k], email.value) { assert k in order; }
        }
        Response(NotFound, Error("No users found with that email"))
      else
        assert forall i :: 0 <= i < |ks| ==> ks[i] in t by {
          forall i | 0 <= i < |ks| ensures ks[i] in t { assert ks[i] in order; }
        }
        var users := Items(t, ks);
        assert (set k | k in t && HasEmail(t[k], email.value)) == set k | k in ks;
        DistinctCard(ks);
        Response(Ok, EmailMatches(users, |users|))
  }

  // ----- scan_by_age -----

  /** `Attr('age').between(lo, hi)`: a numeric `age` within the closed range. */
  predicate AgeBetween(item: Fields, lo: int, hi: int) {
    "age" in item && item["age"].Num? && lo <= item["age"].n <= hi
  }

  function AgeFilter(lo: int, hi: int): Fields -> bool {
    item => AgeBetween(item, lo, hi)
  }

  /** The bounds are read with `int`, defaulting to 0 and 200; an unreadable bound, a
      bound boto3 cannot serialise, and a lower bound above the upper one (which
      DynamoDB refuses as an invalid BETWEEN), end in the handler's 500. */
  function ScanByAge(t: Table, order: seq<Key>, minAge: Option<string>, maxAge: Option<string>): (r: Response)
    requires ScanOf(t, order)
    ensures r.status in {Ok, ServerError}
    ensures r.status == Ok <==>
      && IntOr(minAge, 0).Some? && IntOr(maxAge, 200).Some?
      && NumberFits(IntOr(minAge, 0).value) && NumberFits(IntOr(maxAge, 200).value)
      && IntOr(minAge, 0).value <= IntOr(maxAge, 200).value
    ensures r.status == ServerError ==> r.payload == Fault
    ensures r.status == Ok ==>
      var lo, hi := IntOr(minAge, 0).value, IntOr(maxAge, 200).value;
      && r.payload.AgeMatches?
      && r.payload.ageRange == Decimal(lo) + "-" + Decimal(hi)
      && r.payload.count == |r.payload.users| == |UserIdsWhere(t, AgeFilter(lo, hi))|
      && exists ks :: LatestPerUserWhere(t, ks, AgeFilter(lo, hi)) && r.payload.users == Items(t, ks)
  {
    match (IntOr(minAge, 0), IntOr(maxAge, 200))
    case (Some(lo), Some(hi)) =>
      if !NumberFits(lo) || !NumberFits(hi) || lo > hi then Response(ServerError, Fault)
      else
        var ks := GroupLatest(Where(t, order, AgeFilter(lo, hi)));
        GroupOfFilteredScan(t, order, AgeFilter(lo, hi));
        var users := Items(t, ks);
        Response(Ok, AgeMatches(users, |users|, Decimal(lo) + "-" + Decimal(hi)))
    case _ => Response(ServerError, Fault)
  }

  // ----- query_user_history -----

  /** An absent or empty `user_id` is a 400; one too long for a partition key is
      refused by the store, which ends in 500. */
  function QueryHistory(t: Table, userId: Option<string>): (r: Response)
    ensures r.status in {Ok, BadRequest, NotFound, ServerError}
    ensures r.status == BadRequest <==> userId.None? || userId.value == ""
    ensures r.status == ServerError <==> userId.Some? && userId.value != "" && !PartitionKeyText(userId.value)
    ensures r.status == ServerError ==> r.payload == Fault
    ensures r.status in {BadRequest, NotFound} ==> r.payload.Error?
    ensures r.status == NotFound <==>
      userId.Some? && PartitionKeyText(userId.value) && forall k :: k in t ==> k.0 != userId.value
    ensures r.status == Ok ==>
      && r.payload.History?
      && r.payload.userId == userId.value
      && r.payload.versionCount == |r.payload.versions| == |VersionSet(t, userId.value)|
      && exists ks ::
           && NewestFirst(ks)
           && (forall k :: k in ks <==> k in t && k.0 == userId.value)
           && r.payload.versions == Items(t, ks)
  {
    if userId.None? || userId.value == "" then Response(BadRequest, Error("user_id parameter is required"))
    else if !PartitionKeyText(userId.value) then Response(ServerError, Fault)
    else
      var ks := VersionKeys(t, userId.value);
      HistoryKeys(t, userId.value);
      if ks == [] then
        Response(NotFound, Error(Crud.UserNotFound))
      else
        var versions := Items(t, ks);
        Response(Ok, History(userId.value, versions, |versions|))
  }

  lemma HistoryKeys(t: Table, u: string)
    ensures VersionKeys(t, u) == [] <==> forall k :: k in t ==> k.0 != u
    ensures forall i :: 0 <= i < |VersionKeys(t, u)| ==> VersionKeys(t, u)[i] in t
  {
    var ks := VersionKeys(t, u);
    if ks != [] { assert ks[0] in t; }
  }

  // ----- query_recent_users -----

  /** `Attr('created_at').gt(cutoff)`: a string `created_at` after the cutoff. */
  predicate CreatedAfter(item: Fields, cutoff: string) {
    "created_at" in item && item["created_at"].Str? && Lex.Less(cutoff, item["created_at"].s)
  }

  function RecentFilter(cutoff: string): Fields -> bool {
    item => CreatedAfter(item, cutoff)
  }

  /** The sort key `x['created_at']`; every item that reaches the sort carries one. */
  function CreatedAt(item: Fields): string {
    if "created_at" in item && item["created_at"].Str? then item["created_at"].s else ""
  }

  ghost predicate CreatedDescending(xs: seq<Fields>) {
    forall i, j :: 0 <= i < j < |xs| ==> Lex.LessEq(CreatedAt(xs[j]), CreatedAt(xs[i]))
  }

  /** Inserts `x` ahead of the first item that is not newer than it, so that an item
      keeps its place ahead of later items with the same `created_at`. */
  function InsertByCreated(x: Fields, xs: seq<Fields>): (r: seq<Fields>)
    requires CreatedDescending(xs)
    ensures CreatedDescending(r)
    ensures multiset(r) == multiset(xs) + multiset{x}
    decreases |xs|
  {
    if xs == [] then [x]
    else if Lex.LessEq(CreatedAt(xs[0]), CreatedAt(x)) then
      InsertAtHead(x, xs);
      [x] + xs
    else
      var rest := InsertByCreated(x, xs[1..]);
      InsertBehindHead(x, xs, rest);
      [xs[0]] + rest
  }

  lemma InsertAtHead(x: Fields, xs: seq<Fields>)
    requires CreatedDescending(xs)
    requires xs != [] && Lex.LessEq(CreatedAt(xs[0]), CreatedAt(x))
    ensures CreatedDescending([x] + xs)
  {
    var r := [x] + xs;
    forall i, j | 0 <= i < j < |r| ensures Lex.LessEq(CreatedAt(r[j]), CreatedAt(r[i])) {
      if i == 0 {
        if j > 1 { Lex.LessEqTransitive(CreatedAt(xs[j - 1]), CreatedAt(xs[0]), CreatedAt(x)); }
      } else {
        assert r[i] == xs[i - 1] && r[j] == xs[j - 1];
      }
    }
  }

  lemma InsertBehindHead(x: Fields, xs: seq<Fields>, rest: seq<Fields>)
    requires CreatedDescending(xs)
    requires xs != [] && !Lex.LessEq(CreatedAt(xs[0]), CreatedAt(x))
    requires CreatedDescending(rest)
    requires multiset(rest) == multiset(xs[1..]) + multiset{x}
    ensures CreatedDescending([xs[0]] + rest)
    ensures multiset([xs[0]] + rest) == multiset(xs) + multiset{x}
  {
    HeadTopsRest(x, xs, rest);
    var r := [xs[0]] + rest;
    forall i, j | 0 <= i < j < |r| ensures Lex.LessEq(CreatedAt(r[j]), CreatedAt(r[i])) {
      if i == 0 {
        assert r[j] == rest[j - 1];
      } else {
        assert r[i] == rest[i - 1] && r[j] == rest[j - 1];
      }
    }
    assert xs == [xs[0]] + xs[1..];
  }

  /** The head of a descending list is no older than anything that joins its tail. */
  lemma HeadTopsRest(x: Fields, xs: seq<Fields>, rest: seq<Fields>)
    requires CreatedDescending(xs)
    requires xs != [] && !Lex.LessEq(CreatedAt(xs[0]), CreatedAt(x))
    requires multiset(rest) == multiset(xs[1..]) + multiset{x}
    ensures forall j :: 0 <= j < |rest| ==> Lex.LessEq(CreatedAt(rest[j]), CreatedAt(xs[0]))
  {
    Lex.Total(CreatedAt(x), CreatedAt(xs[0]));
    forall j | 0 <= j < |rest| ensures Lex.LessEq(CreatedAt(rest[j]), CreatedAt(xs[0])) {
      var y := rest[j];
      assert y in multiset(rest);
      if y != x {
        assert y in multiset(xs[1..]);
        var k :| 0 <= k < |xs[1..]| && xs[1..][k] == y;
        assert xs[k + 1] == y;
      }
    }
  }

  /** `users_list.sort(key=lambda x: x['created_at'], reverse=True)`: newest first,
      a stable sort. */
  function SortByCreated(xs: seq<Fields>): (r: seq<Fields>)
    ensures CreatedDescending(r)
    ensures multiset(r) == multiset(xs)
    decreases |xs|
  {
    if xs == [] then []
    else
      assert xs == [xs[0]] + xs[1..];
      InsertByCreated(xs[0], SortByCreated(xs[1..]))
  }

  /** The largest number of days a `timedelta` holds, either way. */
  const TimedeltaDays := 999999999

  /** `timedelta(hours=h)` can be built: `h // 24` whole days within its range. */
  predicate TimedeltaHolds(h: int) {
    -TimedeltaDays <= h / 24 <= TimedeltaDays
  }

  /** `hours` is the parameter's text, already defaulted to "24" when absent;
      `cutoffFor(h)` stands for `(datetime.utcnow() - timedelta(hours=h)).isoformat()`
      for an `h` a `timedelta` holds, None when that difference falls outside the
      years 1 to 9999. Either overflow raises `OverflowError`, which ends in 500. */
  function QueryRecent(t: Table, order: seq<Key>, hours: string, cutoffFor: int -> Option<string>): (r: Response)
    requires ScanOf(t, order)
    ensures r.status in {Ok, ServerError}
    ensures r.status == ServerError <==>
      || IntOr(Some(hours), 24).None?
      || !TimedeltaHolds(IntOr(Some(hours), 24).value)
      || cutoffFor(IntOr(Some(hours), 24).value).None?
    ensures r.status == ServerError ==> r.payload == Fault
    ensures r.status == Ok ==>
      var h := IntOr(Some(hours), 24).value;
      var cutoff := cutoffFor(h).value;
      && r.payload.RecentUsers?
      && r.payload.cutoff == cutoff
      && r.payload.timeframe == "Last " + Decimal(h) + " hours"
      && r.payload.count == |r.payload.users| == |UserIdsWhere(t, RecentFilter(cutoff))|
      && CreatedDescending(r.payload.users)
      && exists ks ::
           && LatestPerUserWhere(t, ks, RecentFilter(cutoff))
           && multiset(r.payload.users) == multiset(Items(t, ks))
  {
    match IntOr(Some(hours), 24)
    case None => Response(ServerError, Fault)
    case Some(h) =>
      if !TimedeltaHolds(h) || cutoffFor(h).None? then Response(ServerError, Fault)
      else
        var cutoff := cutoffFor(h).value;
        var ks := GroupLatest(Where(t, order, RecentFilter(cutoff)));
        GroupOfFilteredScan(t, order, RecentFilter(cutoff));
        var users := SortByCreated(Items(t, ks));
        assert |users| == |Items(t, ks)| by {
          assert |multiset(users)| == |multiset(Items(t, ks))|;
        }
        Response(Ok, RecentUsers(users, |users|, "Last " + Decimal(h) + " hours", cutoff))
  }

  // ----- dispatch -----

  /** `lambda_handler`: the five operations by name; any other value of `operation`,
      or none, gets the list of operations. */
  function Handler(t: Table, params: Params, order: seq<Key>, cutoffFor: int -> Option<string>): (r: Response)
    requires ScanOf(t, order)
    ensures r.payload.Operations? <==> !("operation" in params && params["operation"] in OperationNames)
    ensures r.payload.Operations? ==> r == Response(Ok, Operations(OperationNames))
    ensures Param(params, "operation") == Some("query_by_user") ==> r == QueryByUser(t, Param(params, "user_id"))
    ensures Param(params, "operation") == Some("query_by_email") ==> r == QueryByEmail(t, order, Param(params, "email"))
    ensures Param(params, "operation") == Some("scan_by_age") ==>
              r == ScanByAge(t, order, Param(params, "min_age"), Param(params, "max_age"))
    ensures Param(params, "operation") == Some("query_user_history") ==> r == QueryHistory(t, Param(params, "user_id"))
    ensures Param(params, "operation") == Some("query_recent_users") ==>
              r == QueryRecent(t, order, if "hours" in params then params["hours"] else "24", cutoffFor)
  {
    match Param(params, "operation")
    case Some("query_by_user") => QueryByUser(t, Param(params, "user_id"))
    case Some("query_by_email") => QueryByEmail(t, order, Param(params, "email"))
    case Some("scan_by_age") => ScanByAge(t, order, Param(params, "min_age"), Param(params, "max_age"))
    case Some("query_user_history") => QueryHistory(t, Param(params, "user_id"))
    case Some("query_recent_users") =>
      QueryRecent(t, order, if "hours" in params then params["hours"] else "24", cutoffFor)
    case _ => Response(Ok, Operations(OperationNames))
  }
}

=== FILE: query_laws.dfy ===
/** How the query operations relate to one another and to the CRUD writes. */
module QueryLaws {
  import opened Wrappers
  import opened Store
  import opened Versions
  import opened Http
  import opened IntText
  import opened Query
  import Crud
  import Lex

  /** `query_by_user` answers with the first entry of `query_user_history`: both
      name the same newest version. */
  lemma LatestHeadsHistory(t: Table, u: string)
    requires QueryByUser(t, Some(u)).status == Ok
    ensures QueryHistory(t, Some(u)).status == Ok
    ensures QueryByUser(t, Some(u)).payload.user == QueryHistory(t, Some(u)).payload.versions[0]
  {
    var ks := VersionKeys(t, u);
    var k :| IsLatest(t, k) && k.0 == u && QueryByUser(t, Some(u)).payload == UserFound(t[k]);
    assert k in ks;
    assert IsLatest(t, ks[0]) by {
      forall k' | k' in t && k'.0 == u ensures Lex.LessEq(k'.1, ks[0].1) {
        assert k' in ks;
      }
    }
    LatestUnique(t, k, ks[0]);
  }

  /** An update puts its new version at the head of the user's history and leaves the
      rest of the history as it was. */
  lemma UpdateExtendsHistory(t: Table, body: Http.Body, u: string, now: string)
    requires KeyedBy(Users, t)
    requires Crud.Update(t, body, u, now).1.status == Ok
    requires Fresh(t, u, now)
    ensures var r := Crud.Update(t, body, u, now);
            && QueryHistory(t, Some(u)).status == Ok
            && QueryHistory(r.0, Some(u)).payload.versions
               == [r.1.payload.user] + QueryHistory(t, Some(u)).payload.versions
  {
    var r := Crud.Update(t, body, u, now);
    var k :| IsLatest(t, k) && k.0 == u;
    assert HasKey(Users, t[k], k);
    assert r.0 == t[(u, now) := r.1.payload.user];
    PutExtendsHistory(t, (u, now), r.1.payload.user, k);
  }

  /** Writing a version newer than every version of its user, when the user already has
      one, puts the new item at the head of the history. */
  lemma PutExtendsHistory(t: Table, k: Key, item: Fields, existing: Key)
    requires Fresh(t, k.0, k.1) && PartitionKeyText(k.0)
    requires existing in t && existing.0 == k.0
    ensures QueryHistory(t, Some(k.0)).status == Ok
    ensures QueryHistory(t[k := item], Some(k.0)).payload.versions
            == [item] + QueryHistory(t, Some(k.0)).payload.versions
  {
    var vs := VersionKeys(t, k.0);
    var t' := t[k := item];
    assert VersionKeys(t', k.0) == [k] + vs && k !in t by { PutFresh(t, k, item); }
    HistoryIs(t, k.0);
    HistoryIs(t', k.0);
    ItemsPrepend(t, k, item, vs);
  }

  lemma ItemsPrepend(t: Table, k: Key, item: Fields, vs: seq<Key>)
    requires k !in t
    requires forall i :: 0 <= i < |vs| ==> vs[i] in t
    ensures Items(t[k := item], [k] + vs) == [item] + Items(t, vs)
  {
  }

  lemma HistoryIs(t: Table, u: string)
    requires PartitionKeyText(u)
    ensures forall i :: 0 <= i < |VersionKeys(t, u)| ==> VersionKeys(t, u)[i] in t
    ensures VersionKeys(t, u) != [] ==>
              QueryHistory(t, Some(u)).status == Ok
              && QueryHistory(t, Some(u)).payload.versions == Items(t, VersionKeys(t, u))
  {
  }

  /** A deleted user has no history left. */
  lemma DeleteEmptiesHistory(t: Table, u: string)
    requires PartitionKeyText(u)
    ensures QueryHistory(Crud.Delete(t, u).0, Some(u)).status == NotFound
    ensures QueryByUser(Crud.Delete(t, u).0, Some(u)).status == NotFound
  {
  }

  /** With the newest version of a user inside the age range, `scan_by_age` reports
      that user at that version and at no other, the version `query_by_user` returns. */
  lemma AgeScanAgreesWhenNewestMatches(t: Table, order: seq<Key>, minAge: Option<string>, maxAge: Option<string>, k: Key)
    requires KeyedBy(Users, t)
    requires ScanOf(t, order)
    requires ScanByAge(t, order, minAge, maxAge).status == Ok
    requires IsLatest(t, k) && AgeBetween(t[k], IntOr(minAge, 0).value, IntOr(maxAge, 200).value)
    ensures t[k] in ScanByAge(t, order, minAge, maxAge).payload.users
    ensures forall x :: x in ScanByAge(t, order, minAge, maxAge).payload.users && "user_id" in x && x["user_id"] == Str(k.0)
              ==> x == t[k]
    ensures QueryByUser(t, Some(k.0)) == Response(Ok, UserFound(t[k]))
  {
    var lo, hi := IntOr(minAge, 0).value, IntOr(maxAge, 200).value;
    var users := ScanByAge(t, order, minAge, maxAge).payload.users;
    var ks: seq<Key> :| LatestPerUserWhere(t, ks, AgeFilter(lo, hi)) && users == Items(t, ks);
    GroupedAtNewest(t, ks, lo, hi, k);
    ReadOfNewest(t, k);
  }

  lemma ReadOfNewest(t: Table, k: Key)
    requires KeyedBy(Users, t)
    requires IsLatest(t, k)
    ensures QueryByUser(t, Some(k.0)) == Response(Ok, UserFound(t[k]))
  {
    assert HasKey(Users, t[k], k);
    LatestKeyIs(t, k);
  }

  lemma GroupedAtNewest(t: Table, ks: seq<Key>, lo: int, hi: int, k: Key)
    requires KeyedBy(Users, t)
    requires LatestPerUserWhere(t, ks, AgeFilter(lo, hi))
    requires IsLatest(t, k) && AgeBetween(t[k], lo, hi)
    ensures forall i :: 0 <= i < |ks| ==> ks[i] in t
    ensures t[k] in Items(t, ks)
    ensures forall x :: x in Items(t, ks) && "user_id" in x && x["user_id"] == Str(k.0) ==> x == t[k]
  {
    var users := Items(t, ks);
    assert AgeFilter(lo, hi)(t[k]);
    assert k.0 in UsersOf(ks);
    var i :| 0 <= i < |ks| && ks[i].0 == k.0;
    NewestMatchIsGrouped(t, ks, lo, hi, i, k);
    assert users[i] == t[k];
    forall x | x in users && "user_id" in x && x["user_id"] == Str(k.0) ensures x == t[k] {
      var j :| 0 <= j < |users| && users[j] == x;
      assert HasKey(Users, t[ks[j]], ks[j]);
      NewestMatchIsGrouped(t, ks, lo, hi, j, k);
    }
  }

  /** A grouped key of the user whose newest version matches is that newest version. */
  lemma NewestMatchIsGrouped(t: Table, ks: seq<Key>, lo: int, hi: int, i: nat, k: Key)
    requires LatestPerUserWhere(t, ks, AgeFilter(lo, hi))
    requires IsLatest(t, k) && AgeBetween(t[k], lo, hi)
    requires i < |ks| && ks[i].0 == k.0
    ensures ks[i] == k
  {
    assert AgeFilter(lo, hi)(t[k]);
    assert Lex.LessEq(k.1, ks[i].1);
    assert Lex.LessEq(ks[i].1, k.1);
    if k.1 != ks[i].1 { Lex.Asymmetric(k.1, ks[i].1); }
  }

  /** Two versions of user "u": the older one aged 30, the newer one aged 250. */
  const OlderVersion: Fields := map["user_id" := Str("u"), "timestamp" := Str("1"), "age" := Num(30)]
  const NewerVersion: Fields := map["user_id" := Str("u"), "timestamp" := Str("2"), "age" := Num(250)]
  const TwoVersions: Table := map[("u", "1") := OlderVersion, ("u", "2") := NewerVersion]
  const TwoVersionsScan: seq<Key> := [("u", "1"), ("u", "2")]

  /** When the newest version of a user is outside the age range, `scan_by_age` still
      reports an older version that is inside it: the filter runs before the grouping. */
  lemma AgeScanMayReportOlderVersion()
    ensures ScanOf(TwoVersions, TwoVersionsScan)
    ensures ScanByAge(TwoVersions, TwoVersionsScan, None, None)
            == Response(Ok, AgeMatches([OlderVersion], 1, "0-200"))
    ensures QueryByUser(TwoVersions, Some("u")) == Response(Ok, UserFound(NewerVersion))
  {
    AgeScanOfTwoVersions();
    ReadOfTwoVersions();
  }

  lemma AgeScanOfTwoVersions()
    ensures ScanOf(TwoVersions, TwoVersionsScan)
    ensures ScanByAge(TwoVersions, TwoVersionsScan, None, None)
            == Response(Ok, AgeMatches([OlderVersion], 1, "0-200"))
  {
    ScanOfTwoVersions();
    AgeScanWithoutBounds(TwoVersions, TwoVersionsScan);
    AgeFilterOfTwoVersions();
    GroupedOlderVersion();
    DefaultAgeRange();
  }

  /** Without bounds the scan keeps ages 0 to 200. */
  lemma AgeScanWithoutBounds(t: Table, order: seq<Key>)
    requires ScanOf(t, order)
    ensures var ks := GroupLatest(Where(t, order, AgeFilter(0, 200)));
            && (forall i :: 0 <= i < |ks| ==> ks[i] in t)
            && ScanByAge(t, order, None, None)
               == Response(Ok, AgeMatches(Items(t, ks), |ks|, Decimal(0) + "-" + Decimal(200)))
  {
    GroupOfFilteredScan(t, order, AgeFilter(0, 200));
  }

  lemma GroupedOlderVersion()
    ensures GroupLatest([("u", "1")]) == [("u", "1")]
    ensures Items(TwoVersions, [("u", "1")]) == [OlderVersion]
  {
    assert GroupLatest([("u", "1")]) == [("u", "1")];
  }

  lemma DefaultAgeRange()
    ensures Decimal(0) + "-" + Decimal(200) == "0-200"
  {
    assert Decimal(0) == "0" && Decimal(200) == "200";
  }

  lemma ScanOfTwoVersions()
    ensures ScanOf(TwoVersions, TwoVersionsScan)
  {
  }

  /** Only the older version passes the default age filter. */
  lemma AgeFilterOfTwoVersions()
    ensures Where(TwoVersions, TwoVersionsScan, AgeFilter(0, 200)) == [("u", "1")]
  {
    assert AgeFilter(0, 200)(OlderVersion) && !AgeFilter(0, 200)(NewerVersion);
    assert Where(TwoVersions, [("u", "2")], AgeFilter(0, 200)) == [];
  }

  lemma ReadOfTwoVersions()
    ensures QueryByUser(TwoVersions, Some("u")) == Response(Ok, UserFound(NewerVersion))
  {
    assert IsLatest(TwoVersions, ("u", "2")) by { assert Lex.Less("1", "2"); }
    LatestKeyIs(TwoVersions, ("u", "2"));
  }

  /** Without an `hours` parameter, or with an empty one, the cutoff is 24 hours back,
      and the query fails only where that reading of the clock does. */
  lemma RecentDefaultsToADay(t: Table, order: seq<Key>, cutoffFor: int -> Option<string>)
    requires ScanOf(t, order)
    ensures var r := Handler(t, map["operation" := "query_recent_users"], order, cutoffFor);
            && (r.status == Ok <==> cutoffFor(24).Some?)
            && (r.status == Ok ==> r.payload.cutoff == cutoffFor(24).value)
    ensures var r := QueryRecent(t, order, "", cutoffFor);
            && (r.status == Ok <==> cutoffFor(24).Some?)
            && (r.status == Ok ==> r.payload.cutoff == cutoffFor(24).value)
  {
    ParseTwentyFour();
    var params := map["operation" := "query_recent_users"];
    assert Handler(t, params, order, cutoffFor) == QueryRecent(t, order, "24", cutoffFor);
    RecentCutoff(t, order, "24", cutoffFor);
    RecentCutoff(t, order, "", cutoffFor);
  }

  lemma ParseTwentyFour()
    ensures ParseInt("24") == Some(24)
  {
    ParseDecimal(24);
    assert Decimal(24) == "24";
  }

  /** A recent-users query on readable hours within a `timedelta`'s range succeeds
      exactly when the clock can be turned back that far, and reports that cutoff. */
  lemma RecentCutoff(t: Table, order: seq<Key>, hours: string, cutoffFor: int -> Option<string>)
    requires ScanOf(t, order)
    requires IntOr(Some(hours), 24).Some? && TimedeltaHolds(IntOr(Some(hours), 24).value)
    ensures var r, h := QueryRecent(t, order, hours, cutoffFor), IntOr(Some(hours), 24).value;
            && (r.status == Ok <==> cutoffFor(h).Some?)
            && (r.status == Ok ==> r.payload.cutoff == cutoffFor(h).value)
  {
  }

  /** More hours than a `timedelta` holds, either way, end in 500 whatever the clock
      reads. */
  lemma HoursBeyondTimedelta(t: Table, order: seq<Key>, h: int, cutoffFor: int -> Option<string>)
    requires ScanOf(t, order)
    requires h >= (TimedeltaDays + 1) * 24 || h < -TimedeltaDays * 24
    ensures QueryRecent(t, order, Decimal(h), cutoffFor) == Response(ServerError, Fault)
  {
    ParseDecimal(h);
  }

  /** The number in the reported time frame is the number of hours the cutoff used. */
  lemma TimeframeReadsBack(t: Table, order: seq<Key>, hours: string, cutoffFor: int -> Option<string>)
    requires ScanOf(t, order)
    requires QueryRecent(t, order, hours, cutoffFor).status == Ok
    ensures exists h :: cutoffFor(h) == Some(QueryRecent(t, order, hours, cutoffFor).payload.cutoff)
                     && QueryRecent(t, order, hours, cutoffFor).payload.timeframe == "Last " + Decimal(h) + " hours"
                     && ParseInt(Decimal(h)) == Some(h)
  {
    var h := IntOr(Some(hours), 24).value;
    ParseDecimal(h);
  }
}

=== FILE: store.dfy ===
/** The key-value store the Lambda handlers write to: a DynamoDB table with a string
    partition key and a string sort key, modelled as a finite map from the key pair to
    the stored item. */
module Store {
  import opened Wrappers

  /** The attribute values the handlers store and compare: strings, integers, and
      JSON `null`. */
  datatype Value = Str(s: string) | Num(n: int) | Null

  /** An item, or a decoded JSON object: attribute name to value. */
  type Fields = map<string, Value>

  /** (partition key, sort key). */
  type Key = (string, string)

  type Table = map<Key, Fields>

  /** The names of a table's partition-key and sort-key attributes, both of type string,
      and the attributes that are string keys of a secondary index. */
  datatype Schema = Schema(partition: string, sort: string, indexed: set<string>)

  /** The size of a character in UTF-8. */
  function CharSize(c: char): nat {
    if c as int < 0x80 then 1 else if c as int < 0x800 then 2 else if c as int < 0x1_0000 then 3 else 4
  }

  /** The length of `s` encoded as UTF-8, the measure of a key's size. */
  function Utf8Size(s: string): (r: nat)
    ensures |s| <= r <= 4 * |s|
    ensures r == 0 <==> s == []
  {
    if s == [] then 0 else CharSize(s[0]) + Utf8Size(s[1..])
  }

  /** The size of a concatenation is the sum of the sizes of its parts. */
  lemma {:induction false} Utf8SizeAppend(a: string, b: string)
    ensures Utf8Size(a + b) == Utf8Size(a) + Utf8Size(b)
    decreases |a|
  {
    if a == [] {
      assert a + b == b;
    } else {
      assert (a + b)[0] == a[0] && (a + b)[1..] == a[1..] + b;
      Utf8SizeAppend(a[1..], b);
    }
  }

  /** An ASCII string takes one byte per character. */
  lemma {:induction false} AsciiSize(s: string)
    requires forall i :: 0 <= i < |s| ==> s[i] as int < 0x80
    ensures Utf8Size(s) == |s|
    decreases |s|
  {
    if s != [] {
      assert forall i :: 0 <= i < |s[1..]| ==> s[1..][i] == s[i + 1];
      AsciiSize(s[1..]);
    }
  }

  /** The largest partition-key value, of the table or of a secondary index, in bytes. */
  const PartitionKeyBytes := 2048

  /** The largest sort-key value in bytes. */
  const SortKeyBytes := 1024

  /** A string the store takes as a key value of at most `limit` bytes: not empty, and
      not longer once encoded. A string of at most `limit / 4` characters fits whatever
      its characters, and is taken without being measured. */
  predicate KeyText(s: string, limit: nat) {
    s != "" && (|s| <= limit / 4 || Utf8Size(s) <= limit)
  }

  /** The shortcut for short strings agrees with measuring them. */
  lemma KeyTextIsSize(s: string, limit: nat)
    ensures KeyText(s, limit) <==> s != "" && Utf8Size(s) <= limit
  {
  }

  /** A string the store takes as a partition-key value: not empty, at most 2048 bytes. */
  predicate PartitionKeyText(s: string) {
    KeyText(s, PartitionKeyBytes)
  }

  /** A string the store takes as a sort-key value: not empty, at most 1024 bytes. */
  predicate SortKeyText(s: string) {
    KeyText(s, SortKeyBytes)
  }

  /** `item` names `k` as its key: both key attributes are present, are strings, and
      are values the store takes for them. */
  predicate HasKey(schema: Schema, item: Fields, k: Key) {
    && schema.partition in item && item[schema.partition] == Str(k.0) && PartitionKeyText(k.0)
    && schema.sort in item && item[schema.sort] == Str(k.1) && SortKeyText(k.1)
  }

  /** A value the store accepts for the string partition key of a secondary index. */
  predicate KeyValue(v: Value) {
    v.Str? && PartitionKeyText(v.s)
  }

  /** Every index-key attribute the item carries is a usable key value; an item without
      the attribute is simply left out of the index. */
  predicate Indexable(schema: Schema, item: Fields) {
    forall a :: a in schema.indexed && a in item ==> KeyValue(item[a])
  }

  /** The store's invariant: every item sits under the key its own attributes name, its
      index-key attributes are usable, and its numbers can be serialised. */
  predicate KeyedBy(schema: Schema, t: Table) {
    forall k :: k in t ==> HasKey(schema, t[k], k) && Indexable(schema, t[k]) && Fits(t[k])
  }

  function KeyOf(schema: Schema, item: Fields): (r: Option<Key>)
    ensures r.Some? ==> HasKey(schema, item, r.value)
    ensures r.None? ==> forall k :: !HasKey(schema, item, k)
  {
    if && schema.partition in item && item[schema.partition].Str? && PartitionKeyText(item[schema.partition].s)
       && schema.sort in item && item[schema.sort].Str? && SortKeyText(item[schema.sort].s)
    then Some((item[schema.partition].s, item[schema.sort].s))
    else None
  }

  /** 10^38: boto3 serialises a number with at most 38 significant digits; an integer
      with more would be rounded, and its decimal context traps rounding. */
  const NumberLimit := 100000000000000000000000000000000000000

  predicate NumberFits(n: int) {
    -NumberLimit < n < NumberLimit
  }

  /** Every number the item carries can be serialised. */
  predicate Fits(item: Fields) {
    forall a :: a in item && item[a].Num? ==> NumberFits(item[a].n)
  }

  /** The store takes the item: it names a key, its index keys are usable, and its
      numbers can be serialised. */
  predicate Accepted(schema: Schema, item: Fields) {
    KeyOf(schema, item).Some? && Indexable(schema, item) && Fits(item)
  }

  /** `put_item`: stores `item` under the key it names, replacing whatever was stored
      there; the store refuses an item whose key attributes are missing, are not
      strings, are empty or are too long, one whose index-key attribute is present but
      not such a string, and one carrying a number it cannot serialise. */
  function Put(schema: Schema, t: Table, item: Fields): (r: Option<Table>)
    ensures r.None? <==> !Indexable(schema, item) || !Fits(item) || forall k :: !HasKey(schema, item, k)
    ensures forall k :: HasKey(schema, item, k) && Indexable(schema, item) && Fits(item) ==> r == Some(t[k := item])
    ensures r.Some? && KeyedBy(schema, t) ==> KeyedBy(schema, r.value)
  {
    match KeyOf(schema, item)
    case None => None
    case Some(k) => if Indexable(schema, item) && Fits(item) then Some(t[k := item]) else None
  }

  /** Writing under a new key adds one record and keeps every other. */
  lemma PutNew(t: Table, k: Key, item: Fields)
    requires k !in t
    ensures |t[k := item]| == |t| + 1
    ensures forall k' :: k' in t ==> k' in t[k := item] && t[k := item][k'] == t[k']
  {
  }

  /** The items put one after another; None as soon as one of them is refused. */
  function PutAll(schema: Schema, t: Table, items: seq<Fields>): (r: Option<Table>)
    ensures r.Some? <==> forall i :: 0 <= i < |items| ==> Accepted(schema, items[i])
    ensures r.Some? && KeyedBy(schema, t) ==> KeyedBy(schema, r.value)
    decreases |items|
  {
    if items == [] then Some(t)
    else
      match Put(schema, t, items[0])
      case None => None
      case Some(t') => PutAll(schema, t', items[1..])
  }

  predicate Distinct<T(==)>(s: seq<T>) {
    forall i, j :: 0 <= i < j < |s| ==> s[i] != s[j]
  }

  /** `order` lists every key of `t` exactly once: the order, unknown to the handlers,
      in which a scan or an index query hands back the table's items. */
  predicate ScanOf(t: Table, order: seq<Key>) {
    && Distinct(order)
    && (forall i :: 0 <= i < |order| ==> order[i] in t)
    && (forall k :: k in t ==> k in order)
  }

  /** The keys of `ks` whose items satisfy `p`, in the same order: a scan or query
      with a filter expression. */
  function Where(t: Table, ks: seq<Key>, p: Fields -> bool): (r: seq<Key>)
    requires forall i :: 0 <= i < |ks| ==> ks[i] in t
    ensures forall k :: k in r <==> k in ks && p(t[k])
    ensures Distinct(ks) ==> Distinct(r)
    decreases |ks|
  {
    if ks == [] then []
    else
      var rest := Where(t, ks[1..], p);
      assert forall k :: k in ks[1..] ==> k in ks;
      if p(t[ks[0]]) then [ks[0]] + rest else rest
  }

  /** The items stored under `ks`, in the same order. */
  function Items(t: Table, ks: seq<Key>): (r: seq<Fields>)
    requires forall i :: 0 <= i < |ks| ==> ks[i] in t
    ensures |r| == |ks|
    ensures forall i :: 0 <= i < |ks| ==> r[i] == t[ks[i]]
  {
    seq(|ks|, i requires 0 <= i < |ks| => t[ks[i]])
  }

  lemma {:induction false} DistinctCard<T>(s: seq<T>)
    requires Distinct(s)
    ensures |set x | x in s| == |s|
    decreases |s|
  {
    if s != [] {
      var rest := s[1..];
      DistinctCard(rest);
      assert (set x | x in s) == (set x | x in rest) + {s[0]};
      assert s[0] !in rest by {
        forall j | 0 <= j < |rest| ensures rest[j] != s[0] { assert rest[j] == s[j + 1]; }
      }
    }
  }

  /** Items with distinct keys, none of them stored yet, add one record each and
      leave every stored record alone. */
  lemma {:induction false} PutAllFresh(schema: Schema, t: Table, items: seq<Fields>, keys: seq<Key>)
    requires |keys| == |items|
    requires forall i :: 0 <= i < |items| ==> HasKey(schema, items[i], keys[i]) && Accepted(schema, items[i])
    requires Distinct(keys)
    requires forall i :: 0 <= i < |keys| ==> keys[i] !in t
    ensures PutAll(schema, t, items).Some?
    ensures |PutAll(schema, t, items).value| == |t| + |items|
    ensures forall i :: 0 <= i < |items| ==>
              keys[i] in PutAll(schema, t, items).value && PutAll(schema, t, items).value[keys[i]] == items[i]
    ensures forall k :: k in t ==> k in PutAll(schema, t, items).value && PutAll(schema, t, items).value[k] == t[k]
    decreases |items|
  {
    if items != [] {
      var t1 := t[keys[0] := items[0]];
      assert Put(schema, t, items[0]) == Some(t1);
      PutNew(t, keys[0], items[0]);
      forall i | 0 <= i < |keys| - 1 ensures keys[1..][i] !in t1 {
        assert keys[1..][i] == keys[i + 1] != keys[0];
      }
      PutAllFresh(schema, t1, items[1..], keys[1..]);
      var t' := PutAll(schema, t, items).value;
      assert t' == PutAll(schema, t1, items[1..]).value;
      forall i | 0 <= i < |items| ensures keys[i] in t' && t'[keys[i]] == items[i] {
        if i > 0 { assert keys[1..][i - 1] == keys[i] && items[1..][i - 1] == items[i]; }
      }
    }
  }

  /** boto3's `BatchWriter` sends its buffer in requests of 25 items. */
  const FlushSize := 25

  predicate SameFlush(i: int, j: int) {
    i / FlushSize == j / FlushSize
  }

  /** No request of the batch writer holds two items with the same key. */
  predicate FlushesDistinct(schema: Schema, items: seq<Fields>) {
    forall i, j :: 0 <= i < j < |items| && SameFlush(i, j) ==> KeyOf(schema, items[i]) != KeyOf(schema, items[j])
  }

  /** `table.batch_writer()` without `overwrite_by_pkeys`: the items are sent 25 to a
      request and stored in order; the store refuses a request that repeats a key, as
      it refuses any item `Put` refuses. */
  function BatchPut(schema: Schema, t: Table, items: seq<Fields>): (r: Option<Table>)
    ensures r.Some? <==>
              && (forall i :: 0 <= i < |items| ==> Accepted(schema, items[i]))
              && FlushesDistinct(schema, items)
    ensures r.Some? ==> r == PutAll(schema, t, items)
    ensures r.Some? && KeyedBy(schema, t) ==> KeyedBy(schema, r.value)
  {
    if FlushesDistinct(schema, items) then PutAll(schema, t, items) else None
  }

  /** Items under pairwise different keys never repeat a key within a request, so the
      batch writer stores them as the puts one after another do. */
  lemma BatchPutOfDistinct(schema: Schema, t: Table, items: seq<Fields>, keys: seq<Key>)
    requires |keys| == |items|
    requires forall i :: 0 <= i < |items| ==> HasKey(schema, items[i], keys[i])
    requires Distinct(keys)
    ensures BatchPut(schema, t, items) == PutAll(schema, t, items)
  {
  }

  /** Two items with one key in the same request make the whole batch refused, where
      putting them one after another would keep the later one. */
  lemma RepeatedKeyInFlush(schema: Schema, t: Table, item: Fields)
    requires Accepted(schema, item)
    ensures PutAll(schema, t, [item, item]).Some?
    ensures BatchPut(schema, t, [item, item]).None?
  {
  }
}

=== FILE: versions.dfy ===
/** The users table of the DynamoDB learning API: every create or update appends a
    physical record keyed by (`user_id`, `timestamp`), and a user's current state is
    the record with the greatest `timestamp`. */
module Versions {
  import opened Wrappers
  import opened Store
  import Lex

  /** Partition key `user_id`, sort key `timestamp` (ISO-8601 text); `email` is the
      partition key of the `email-index` secondary index. */
  const Users := Schema("user_id", "timestamp", {"email"})

  /** The users table takes an item exactly when its key is usable and its `email`, if
      it has one, is a string the index takes as a partition key. */
  lemma UsersIndexable(item: Fields)
    ensures Indexable(Users, item) <==> ("email" in item ==> KeyValue(item["email"]))
  {
  }

  /** The keys of every stored version of user `u`. */
  function VersionSet(t: Table, u: string): set<Key> {
    set k | k in t && k.0 == u
  }

  function Timestamps(t: Table, u: string): set<string> {
    set k | k in t && k.0 == u :: k.1
  }

  function UserIds(t: Table): set<string> {
    set k | k in t :: k.0
  }

  predicate NewestFirst(r: seq<Key>) {
    forall i, j :: 0 <= i < j < |r| ==> Lex.Less(r[j].1, r[i].1)
  }

  /** The keys of every version of user `u`, newest first: a query on the partition key
      with `ScanIndexForward=False`. */
  function VersionKeys(t: Table, u: string): (r: seq<Key>)
    ensures forall k :: k in r <==> k in t && k.0 == u
    ensures NewestFirst(r)
    ensures |r| == |VersionSet(t, u)|
  {
    var ts := Lex.SortedDesc(Timestamps(t, u));
    TaggedVersions(t, u, ts);
    Tagged(u, ts)
  }

  /** Each timestamp of `ts` paired with user `u`. */
  function Tagged(u: string, ts: seq<string>): (r: seq<Key>)
    ensures |r| == |ts|
    ensures forall i :: 0 <= i < |ts| ==> r[i] == (u, ts[i])
  {
    seq(|ts|, i requires 0 <= i < |ts| => (u, ts[i]))
  }

  lemma TaggedVersions(t: Table, u: string, ts: seq<string>)
    requires forall x :: x in ts <==> x in Timestamps(t, u)
    requires Lex.StrictlyDescending(ts)
    ensures forall k :: k in Tagged(u, ts) <==> k in t && k.0 == u
    ensures NewestFirst(Tagged(u, ts))
    ensures |Tagged(u, ts)| == |VersionSet(t, u)|
  {
    var r := Tagged(u, ts);
    forall k | k in t && k.0 == u ensures k in r {
      assert k.1 in Timestamps(t, u);
      var i :| 0 <= i < |ts| && ts[i] == k.1;
      assert r[i] == k;
    }
    forall i | 0 <= i < |r| ensures r[i] in t {
      assert ts[i] in Timestamps(t, u);
      var k :| k in t && k.0 == u && k.1 == ts[i];
      assert k == r[i];
    }
    assert NewestFirst(r);
    NewestFirstIsDistinct(r);
    DistinctCard(r);
    assert (set k | k in r) == VersionSet(t, u);
  }

  lemma NewestFirstIsDistinct(r: seq<Key>)
    requires NewestFirst(r)
    ensures Distinct(r)
  {
    forall i, j | 0 <= i < j < |r| ensures r[i] != r[j] { Lex.Irreflexive(r[i].1); }
  }

  /** Two newest-first sequences of the same keys of one user are the same sequence:
      a keyed query's answer does not depend on how the store enumerates it. */
  lemma {:induction false} NewestFirstUnique(r1: seq<Key>, r2: seq<Key>)
    requires NewestFirst(r1) && NewestFirst(r2)
    requires forall k :: k in r1 <==> k in r2
    ensures r1 == r2
    decreases |r1|
  {
    NewestFirstIsDistinct(r1);
    NewestFirstIsDistinct(r2);
    DistinctCard(r1);
    DistinctCard(r2);
    assert (set k | k in r1) == (set k | k in r2);
    if r1 != [] {
      assert r1[0] in r2;
      var a, b := r1[0], r2[0];
      assert b in r1;
      if a != b {
        var i :| 0 <= i < |r1| && r1[i] == b;
        var j :| 0 <= j < |r2| && r2[j] == a;
        Lex.Asymmetric(a.1, b.1);
        assert false;
      }
      forall k ensures k in r1[1..] <==> k in r2[1..] {
        assert k in r1[1..] <==> k in r1 && k != a;
        assert k in r2[1..] <==> k in r2 && k != b;
      }
      NewestFirstUnique(r1[1..], r2[1..]);
      assert r1 == [a] + r1[1..] && r2 == [b] + r2[1..];
    }
  }

  /** `k` is the newest version of its user in `t`. */
  predicate IsLatest(t: Table, k: Key) {
    k in t && forall k' :: k' in t && k'.0 == k.0 ==> Lex.LessEq(k'.1, k.1)
  }

  /** The key of the newest version of user `u`: a keyed query, newest first, `Limit=1`. */
  function LatestKey(t: Table, u: string): (r: Option<Key>)
    ensures r.None? <==> forall k :: k in t ==> k.0 != u
    ensures r.Some? ==> r.value.0 == u && IsLatest(t, r.value)
  {
    var ts := Timestamps(t, u);
    if ts == {} then
      assert forall k :: k in t && k.0 == u ==> k.1 in ts;
      None
    else
      var m := Lex.Max(ts);
      assert (u, m) in t;
      Some((u, m))
  }

  function Latest(t: Table, u: string): (r: Option<Fields>)
    ensures r.None? <==> forall k :: k in t ==> k.0 != u
    ensures r.Some? ==> exists k :: IsLatest(t, k) && k.0 == u && r.value == t[k]
  {
    match LatestKey(t, u)
    case None => None
    case Some(k) => Some(t[k])
  }

  /** A user has one newest version: two keys that are both newest for the same user
      are the same key. */
  lemma LatestUnique(t: Table, k1: Key, k2: Key)
    requires IsLatest(t, k1) && IsLatest(t, k2) && k1.0 == k2.0
    ensures k1 == k2
  {
    Lex.Asymmetric(k1.1, k2.1);
  }

  lemma LatestKeyIs(t: Table, k: Key)
    requires IsLatest(t, k)
    ensures LatestKey(t, k.0) == Some(k)
    ensures Latest(t, k.0) == Some(t[k])
  {
    LatestUnique(t, k, LatestKey(t, k.0).value);
  }

  /** `now` sorts after every stored timestamp of user `u`: the condition under which a
      record written at `now` becomes that user's newest version. */
  predicate Fresh(t: Table, u: string, now: string) {
    forall k :: k in t && k.0 == u ==> Lex.Less(k.1, now)
  }

  /** Writing a fresh version puts it in front of the user's history and leaves the
      earlier versions in place. */
  lemma VersionKeysAfterPut(t: Table, k: Key, item: Fields)
    requires Fresh(t, k.0, k.1)
    ensures VersionKeys(t[k := item], k.0) == [k] + VersionKeys(t, k.0)
    ensures LatestKey(t[k := item], k.0) == Some(k)
  {
    var t' := t[k := item];
    var old_, new_ := VersionKeys(t, k.0), VersionKeys(t', k.0);
    var r := [k] + old_;
    PrependNewest(old_, k);
    forall x ensures x in new_ <==> x in r {
      assert x in r <==> x == k || x in old_;
    }
    NewestFirstUnique(new_, r);
  }

  lemma PrependNewest(vs: seq<Key>, k: Key)
    requires NewestFirst(vs)
    requires forall x :: x in vs ==> Lex.Less(x.1, k.1)
    ensures NewestFirst([k] + vs)
  {
    var r := [k] + vs;
    forall i, j | 0 <= i < j < |r| ensures Lex.Less(r[j].1, r[i].1) {
      if i == 0 { assert r[j] == vs[j - 1]; }
      else { assert r[i] == vs[i - 1] && r[j] == vs[j - 1]; }
    }
  }

  /** A fresh version is a new record: the table grows by one, every earlier record
      stays, and the new record is its user's newest. */
  lemma PutFresh(t: Table, k: Key, item: Fields)
    requires Fresh(t, k.0, k.1)
    ensures k !in t
    ensures |t[k := item]| == |t| + 1
    ensures forall k' :: k' in t ==> k' in t[k := item] && t[k := item][k'] == t[k']
    ensures VersionKeys(t[k := item], k.0) == [k] + VersionKeys(t, k.0)
    ensures Latest(t[k := item], k.0) == Some(item)
  {
    FreshKeyIsNew(t, k);
    Store.PutNew(t, k, item);
    VersionKeysAfterPut(t, k, item);
    LatestOfKey(t[k := item], k);
  }

  lemma FreshKeyIsNew(t: Table, k: Key)
    requires Fresh(t, k.0, k.1)
    ensures k !in t
  {
    Lex.Irreflexive(k.1);
  }

  lemma LatestOfKey(t: Table, k: Key)
    requires LatestKey(t, k.0) == Some(k)
    ensures Latest(t, k.0) == Some(t[k])
  {
  }

  /** Writing a version of one user leaves every other user's history as it was. */
  lemma VersionKeysOfOthersAfterPut(t: Table, k: Key, item: Fields, u: string)
    requires u != k.0
    ensures VersionKeys(t[k := item], u) == VersionKeys(t, u)
    ensures LatestKey(t[k := item], u) == LatestKey(t, u)
  {
    assert Timestamps(t[k := item], u) == Timestamps(t, u);
  }

  /** The table without the versions of `u`, and the histories that removing them
      leaves. */
  lemma VersionKeysAfterRemove(t: Table, u: string, u': string)
    ensures VersionKeys(t - VersionSet(t, u), u) == []
    ensures u' != u ==> VersionKeys(t - VersionSet(t, u), u') == VersionKeys(t, u')
    ensures u' != u ==> Latest(t - VersionSet(t, u), u') == Latest(t, u')
  {
    if u' != u {
      assert Timestamps(t - VersionSet(t, u), u') == Timestamps(t, u');
      assert LatestKey(t - VersionSet(t, u), u') == LatestKey(t, u');
    }
  }

  // ----- Client-side grouping: one record per user, the newest one -----

  predicate DistinctUsers(d: seq<Key>) {
    forall i, j :: 0 <= i < j < |d| ==> d[i].0 != d[j].0
  }

  function UsersOf(ks: seq<Key>): set<string> {
    set k | k in ks :: k.0
  }

  /** `k` is the newest of the keys of `ks` that belong to its user. */
  predicate IsLatestIn(ks: seq<Key>, k: Key) {
    k in ks && forall k' :: k' in ks && k'.0 == k.0 ==> Lex.LessEq(k'.1, k.1)
  }

  /** Where user `u` sits in the dictionary `d`, or `|d|` when it is not there. */
  function FindUser(d: seq<Key>, u: string): (j: nat)
    ensures j <= |d|
    ensures j < |d| ==> d[j].0 == u
    ensures forall i :: 0 <= i < j ==> d[i].0 != u
  {
    if |d| == 0 then 0
    else if d[0].0 == u then 0
    else 1 + FindUser(d[1..], u)
  }

  /** One turn of the grouping loop: a Python dict keyed by `user_id`, kept in
      insertion order, whose entry is replaced when a strictly newer timestamp arrives. */
  function GroupStep(d: seq<Key>, k: Key): seq<Key> {
    var j := FindUser(d, k.0);
    if j == |d| then d + [k]
    else if Lex.Less(d[j].1, k.1) then d[j := k]
    else d
  }

  /** The grouping loop over the items of a scan, in scan order. */
  function GroupLatest(scan: seq<Key>): (d: seq<Key>)
    ensures DistinctUsers(d)
    ensures UsersOf(d) == UsersOf(scan)
    ensures forall i :: 0 <= i < |d| ==> IsLatestIn(scan, d[i])
    decreases |scan|
  {
    if scan == [] then []
    else
      var prefix := scan[..|scan| - 1];
      var d := GroupLatest(prefix);
      GroupStepKeeps(prefix, d, scan[|scan| - 1]);
      assert scan == prefix + [scan[|scan| - 1]];
      GroupStep(d, scan[|scan| - 1])
  }

  lemma GroupStepKeeps(prefix: seq<Key>, d: seq<Key>, k: Key)
    requires DistinctUsers(d) && UsersOf(d) == UsersOf(prefix)
    requires forall i :: 0 <= i < |d| ==> IsLatestIn(prefix, d[i])
    ensures DistinctUsers(GroupStep(d, k))
    ensures UsersOf(GroupStep(d, k)) == UsersOf(prefix + [k])
    ensures forall i :: 0 <= i < |GroupStep(d, k)| ==> IsLatestIn(prefix + [k], GroupStep(d, k)[i])
  {
    var s := prefix + [k];
    var j := FindUser(d, k.0);
    var d' := GroupStep(d, k);
    assert forall x :: x in s <==> x in prefix || x == k;
    if j == |d| {
      assert k.0 !in UsersOf(prefix) by {
        forall x | x in d ensures x.0 != k.0 {
          var i :| 0 <= i < |d| && d[i] == x;
        }
      }
      assert forall i :: 0 <= i < |d| ==> d'[i] == d[i];
      assert UsersOf(d') == UsersOf(d) + {k.0} by {
        assert forall x :: x in d' <==> x in d || x == k;
      }
    } else if Lex.Less(d[j].1, k.1) {
      forall k' | k' in prefix && k'.0 == k.0 ensures Lex.LessEq(k'.1, k.1) {
        Lex.LessEqTransitive(k'.1, d[j].1, k.1);
      }
      assert UsersOf(d') == UsersOf(d) by {
        forall u | u in UsersOf(d) ensures u in UsersOf(d') {
          var i :| 0 <= i < |d| && d[i].0 == u;
          assert d'[i].0 == u;
        }
      }
    } else {
      Lex.Total(d[j].1, k.1);
    }
  }

  /** A user's newest version appears once in the grouped result, and every grouped
      record is the newest version of its user: what the grouping of a full scan means. */
  predicate LatestPerUser(t: Table, ks: seq<Key>) {
    && DistinctUsers(ks)
    && UsersOf(ks) == UserIds(t)
    && forall i :: 0 <= i < |ks| ==> IsLatest(t, ks[i])
  }

  lemma GroupOfScan(t: Table, order: seq<Key>)
    requires ScanOf(t, order)
    ensures LatestPerUser(t, GroupLatest(order))
    ensures |GroupLatest(order)| == |UserIds(t)|
  {
    var d := GroupLatest(order);
    assert UsersOf(order) == UserIds(t);
    DistinctUsersCard(d);
  }

  lemma {:induction false} DistinctUsersCard(d: seq<Key>)
    requires DistinctUsers(d)
    ensures |UsersOf(d)| == |d|
    decreases |d|
  {
    if d != [] {
      var rest := d[1..];
      DistinctUsersCard(rest);
      assert UsersOf(d) == UsersOf(rest) + {d[0].0};
      assert d[0].0 !in UsersOf(rest) by {
        forall x | x in rest ensures x.0 != d[0].0 {
          var j :| 0 <= j < |rest| && rest[j] == x;
          assert d[j + 1] == rest[j];
        }
      }
    }
  }

  // ----- Grouping after a filter expression -----

  /** `k` is the newest of its user's versions whose items satisfy `p`. */
  predicate IsLatestWhere(t: Table, k: Key, p: Fields -> bool) {
    && k in t && p(t[k])
    && forall k' :: k' in t && k'.0 == k.0 && p(t[k']) ==> Lex.LessEq(k'.1, k.1)
  }

  /** The users having at least one version whose item satisfies `p`. */
  function UserIdsWhere(t: Table, p: Fields -> bool): set<string> {
    set k | k in t && p(t[k]) :: k.0
  }

  /** What grouping a filtered scan means: one record per user that has a matching
      version, and that record the user's newest matching version (which need not be
      the user's newest version). */
  predicate LatestPerUserWhere(t: Table, ks: seq<Key>, p: Fields -> bool) {
    && DistinctUsers(ks)
    && UsersOf(ks) == UserIdsWhere(t, p)
    && forall i :: 0 <= i < |ks| ==> IsLatestWhere(t, ks[i], p)
  }

  lemma GroupOfFilteredScan(t: Table, order: seq<Key>, p: Fields -> bool)
    requires ScanOf(t, order)
    ensures forall i :: 0 <= i < |Where(t, order, p)| ==> Where(t, order, p)[i] in t
    ensures LatestPerUserWhere(t, GroupLatest(Where(t, order, p)), p)
    ensures |GroupLatest(Where(t, order, p))| == |UserIdsWhere(t, p)|
  {
    var ks := Where(t, order, p);
    var d := GroupLatest(ks);
    assert forall k :: k in ks <==> k in t && p(t[k]);
    assert UsersOf(ks) == UserIdsWhere(t, p);
    DistinctUsersCard(d);
  }
}

=== FILE: wrappers.dfy ===
/** The optional value used wherever the handlers may or may not find something. */
module Wrappers {

  datatype Option<+T> = None | Some(value: T)
}
